=== FILE: README.md ===
# toolbaz-2api front-ends, modelled in Dafny

toolbaz-2api puts OpenAI-style chat-completions endpoints and Gradio chat
pages in front of the Toolbaz web site. The real gateway (a provider class
driving a browser pool) is not part of this model. This project models the
deterministic request and response shaping around that gateway:

- **stable.dfy** (`app_hf_stable.py`): the demo handler.
  - Selects the last user message.
  - Answers from per-model reply templates.
  - Estimates usage as twice the word counts.
  - Builds the completion document.
  - Emulates the event stream: a role frame, one frame per word, then `[DONE]`.
  - Lists the models.
- **full.dfy** (`app_hf_full.py`): the mock client.
  - Asks an optional proxy first and falls back to templates.
  - Turns an exception into an error value.
  - The `/chat` endpoint maps the result to status 200 or 500.
- **gradio.dfy** (`app_hf.py`): the Gradio page.
  - Translates `[user, assistant]` history pairs into a message list.
  - Extracts the reply, or an error text.
  - Updates the chat history in place.
  - Handles the model-list fallback and the health text.
- **lite.dfy** (`app_hf_lite.py`): the lite page.
  - Sets a global connectivity status.
  - Serves canned replies.
  - Updates the history in place, preferring the local service's answer.
- **enhanced.dfy** (`main.py`): the enhanced service.
  - Page script: HTML escaping (WHATWG HTML Living Standard, section 13.1.4) and the event-stream read loop of `sendMessage`.
  - Python side: the timeout and error mapping of the completion endpoint, and `/health`.
- **roundtrip.dfy**: the stable service's frames read by the enhanced page's loop. The frames use the `data:` line format of server-sent events (WHATWG HTML Living Standard, section 9.2). The page shows the reply's words joined by single spaces.
- **Shared modules**:
  - `text.dfy`: Python whitespace, `str.split()`, `" ".join`, decimal rendering, `split('\n')`.
  - `json.dfy`: JSON values, plus Python and JavaScript access and truthiness.
  - `openai.dfy`: catalogue, templates, usage, completion document, network outcomes.
  - `wrappers.dfy`: `Option` and `Outcome` (a value, or the text of a raised exception).

How the model stands in for what it cannot see:

- **Network.** A network call is a parameter: a function from URL and body to a `NetOutcome`. The outcome is a response (status, text and the result of `.json()`), a timeout, or another exception with its `str(e)`.
- **Clocks.** Clock readings are `nat` parameters.
- **Provider.** The unseen provider is a function from the request to a `ProviderOutcome`.
- **Mutable state.**
  - The Gradio histories are classes whose `history` field the handlers update.
  - The lite status line is a class field.
  - The loops (last-user selection, message building, frame generation, stream reading) are methods, proved against the functions that specify them.

Two behaviours of the code are worth knowing before reading the model:

- **Stream text.** A stream does not reproduce the non-streamed content. `generate_stream` sends the `content.split()` words joined by single spaces, so every known model's reply loses its line breaks (`Stable.StreamLosesLineBreaks`, `Stable.KnownRepliesHaveLineBreaks`).
- **Stream requests.** In `app_hf_stable.py` a stream request never streams at all (see Findings).

## Model

| member | source | states |
|---|---|---|
| Stable.LastUserIndex | app_hf_stable.py:440-443 | the index found is a user message with no user message after it, and -1 exactly when no message is a user message |
| Stable.UserMessage | app_hf_stable.py:439-443 | the prompt is the content of the last message with role "user" (default "Hello"), and "Hello" when there is none; later messages of other roles play no part |
| Stable.SelectUserMessage | app_hf_stable.py:439-443 | the loop over `reversed(messages)` with `break` returns exactly `UserMessage` |
| Stable.ReplyTemplate | app_hf_stable.py:446-455 | a model gets the default template exactly when it is not one of the six known ids |
| Stable.TemplateSignature | app_hf_stable.py:446-455 | each model's template shows a signature that leads back to that template and, for a known model, to the model |
| Stable.ReplyIdentifiesModelAndText | app_hf_stable.py:446-455 | equal replies come from the same user text and from the same model, or from two unknown models |
| Stable.ReplyUsagePositive | app_hf_stable.py:455-460 | every reply has at least one word, so `total_tokens` is at least 2 |
| OpenAi.FillRecoversText | app_hf_stable.py:446-455 | the f-string templates are injective in the quoted user text |
| OpenAi.EstimateUsage | app_hf_stable.py:458-460 | prompt and completion tokens are twice the `split()` word counts, total is their sum, all three are even |
| OpenAi.UsagePositive | app_hf_stable.py:458-460 | a reply starting with a visible character gives a total of at least 2 |
| OpenAi.BuildCompletion | app_hf_stable.py:463-483 | exactly one choice, index 0, role "assistant", finish_reason "stop"; the model, id, created and usage are taken from the inputs |
| OpenAi.CompletionJson | app_hf_stable.py:463-483 | the serialised document has exactly the keys id, object, created, model, choices and usage, and its `choices[0].message.content` is the first choice's reply |
| Stable.Prepare | app_hf_stable.py:433-483 | succeeds exactly when the selected user text is a string; then the completion for the requested model (default "toolbaz-v4.5-fast") with that model's reply |
| Stable.GenerateStream | app_hf_stable.py:487-518 | the generator's loop yields exactly `StreamFrames`: role frame, word frames in order, `[DONE]` |
| Stable.StreamShape | app_hf_stable.py:487-518 | two more frames than words: a role frame with empty content first, a single `[DONE]` last, every chunk stamped with the same id, created and model |
| Stable.StreamFrames | app_hf_stable.py:487-518 | two more frames than words, the role frame with empty content first and `[DONE]` last |
| Stable.StreamWordDeltas | app_hf_stable.py:500-515 | word frame i carries word i plus one space, except the last word, which is bare; words never end in whitespace |
| Stable.WordFramesText | app_hf_stable.py:500-515 | the word frames' deltas concatenate to the words joined by single spaces |
| Stable.StreamText | app_hf_stable.py:487-518 | the whole stream's deltas concatenate to `" ".join(content.split())`, which splits back into the same words |
| Stable.StreamLosesLineBreaks | app_hf_stable.py:500-515 | a reply containing a line break differs from what its stream concatenates to |
| Stable.KnownRepliesHaveLineBreaks | app_hf_stable.py:447-452 | every known model's reply contains a line break |
| Stable.Handle | app_hf_stable.py:485-526 | as written: status 200 with the completion exactly when preparation succeeds and `stream` is falsy; a request whose preparation raises gets 500 `{"error": "处理失败: " + e}` with that exception's text; a prepared stream request gets the same 500 with the NameError text |
| Stable.StreamRequestsFail | app_hf_stable.py:520-526 | a request with truthy `stream` gets 500 `{"error": "处理失败: name 'StreamingResponse' is not defined"}` |
| Stable.Failure | app_hf_stable.py:524-526 | status 500 with a body whose only key is `error`, holding `"处理失败: "` plus the exception text |
| Stable.HandleIntended | app_hf_stable.py:485-522 | as intended: a stream request gets the frames of `generate_stream` for the completion; every other request is answered as `Handle` answers it |
| Stable.ListModels | app_hf_stable.py:528-541 | exactly the six known ids, in catalogue order; each card carries the owner of its id (`Owner`) and its own clock reading, since `int(time.time())` is evaluated once per entry |
| Stable.ModelListJson | app_hf_stable.py:531-541 | the document's `data` array holds one entry per card, in order |
| Stable.ListedModelsHaveTemplates | app_hf_stable.py:528-541 | a model is listed exactly when it has a template of its own |
| Full.AvailableModels | app_hf_full.py:46-58 | the six known ids in catalogue order, each with its display name ("Toolbaz v4.5 Fast", "Gemini 2.5 Flash", "Gemini 2.5 Pro", "Claude Sonnet 4", "GPT-5", "Grok 4 Fast") |
| Full.ReplyTemplate | app_hf_full.py:113-133 | the default branch is taken exactly for ids that are not one of the six |
| Full.RepliesOpenWithModelName | app_hf_full.py:114-130 | each known model's reply opens with its display name in brackets |
| Full.AgreesWithStableExceptToolbazAndDefault | app_hf_full.py:114-133 | the reply equals the stable service's reply exactly for the five known models other than "toolbaz-v4.5-fast" |
| Full.MockResponse | app_hf_full.py:110-156 | for a string text, the completion of the model's reply, with usage from the word counts; otherwise the AttributeError from `split`; `stream` is not used |
| Full.TryRealApi | app_hf_full.py:87-108 | None without a non-empty proxy URL; otherwise the decoded body exactly when the POST answers 200 with a decodable body |
| Full.ChatCompletion | app_hf_full.py:63-85 | the proxy's answer exactly when it is truthy; otherwise the mock completion exactly when the last message's content is a string, and else `"API调用失败: "` plus the AttributeError text of `split` |
| Full.LastContent | app_hf_full.py:70 | the content of the last message whatever its role (default ""), and "" for an empty list |
| Full.QuotesLastMessageWhateverItsRole | app_hf_full.py:70 | after a user question and an assistant answer, the client hands the mock the answer, where the stable service takes the question |
| Full.StreamIgnored | app_hf_full.py:63-156 | the `stream` argument never changes the client's result |
| Full.ChatEndpoint | app_hf_full.py:611-632 | status 500 exactly when the result reports an error (or is not a dict), otherwise 200 with the result; the 500 body is `{"error": …}` holding the client's error text, the proxy's own `error` value, or `"处理失败: "` plus the AttributeError of `get` for a non-dict answer; missing fields take their defaults |
| Full.NoProxyAnswersWithMock | app_hf_full.py:611-628 | without a proxy, the answer is 200 with the mock completion for the requested model (default "toolbaz-v4.5-fast") |
| Gradio.RequestMessages | app_hf.py:49-55 | one message per turn, one more per turn with a truthy reply, and one more at the end, the last being the new user text |
| Gradio.TurnMessages | app_hf.py:50-53 | a turn gives its user message, then an assistant message exactly when the reply is truthy |
| Gradio.Translate | app_hf.py:49-53 | at least one message per turn, every role being "user" or "assistant" |
| Gradio.TranslateLength | app_hf.py:49-55 | each turn adds one user message, plus one assistant message when its reply is truthy |
| Gradio.TranslateAppend | app_hf.py:49-55 | turns are translated independently and in history order |
| Gradio.TranslateKeepsUserTexts | app_hf.py:49-55 | the user messages are the history's user texts, in order, none dropped or repeated |
| Gradio.BuildMessages | app_hf.py:49-55 | the append loop builds exactly `RequestMessages` |
| Gradio.RequestBody | app_hf.py:58-70 | the body carries the chosen model, the messages in order and `stream: False` |
| Gradio.ReplyFor | app_hf.py:72-85 | on 200, `choices[0].message.content` (default ""), or the failure text when extraction or decoding raises; otherwise the API-error text, the fixed timeout text, or `"❌ 请求失败: "` plus the exception text |
| Gradio.ReplyOfCompletion | app_hf.py:72-75 | any document with an object at `choices[0].message` gives its `content` (default ""), whatever other keys it has, so a full completion document gives its first choice's reply; an object without `choices` gives ""; an empty `choices` gives the IndexError text |
| Gradio.ApiErrorIdentifiesResponse | app_hf.py:76-79 | equal API-error texts come from the same status and body text |
| Gradio.ChatCompletion | app_hf.py:45-85 | the reply is `ReplyFor` applied to the POST of the translated history and new message |
| Gradio.ChatSession.Respond | app_hf.py:178-191 | a blank message leaves the history unchanged; otherwise exactly one turn `[message, reply]` is appended, the reply computed from the history before it; the textbox is cleared |
| Gradio.ChatSession.constructor | app_hf.py:131-135 | the chat starts with an empty history |
| Gradio.FallbackModels | app_hf.py:22-29 | the six known ids in catalogue order |
| Gradio.ListedIds | app_hf.py:37 | for a `data` array of dicts, each entry's `id` (default "unknown") in order; a missing `data` gives []; a non-dict body raises |
| Gradio.IdOf | app_hf.py:37 | an entry's `id` when present, "unknown" when the entry is a dict without one |
| Gradio.ListedIdsOfCards | app_hf.py:37 | walking a model-list document gives back its cards' ids in order |
| Gradio.GetModels | app_hf.py:31-43 | the listed ids after a 200 whose body can be walked; the fixed six on any other status, on a decoding failure, on an exception, and after a 200 whose body cannot be walked |
| Gradio.GetModelsReadsStableList | app_hf.py:31-43 | reading the stable service's model list gives the same six ids as the fallback |
| Gradio.HealthCheck | app_hf.py:87-96 | "✅ 服务正常运行" exactly for status 200, `"⚠️ 服务异常: HTTP "` plus the code for other statuses, `"❌ 服务不可用: "` plus the exception text |
| Gradio.HealthCheckNamesStatus | app_hf.py:87-96 | different failing statuses give different health texts |
| Json.PyReplyContent | app_hf.py:74 | a non-dict body raises; a dict without `choices`, or whose first choice has no `message`, gives the default; an object at `choices[0].message` gives its `content` or the default; an empty `choices` raises the IndexError |
| Json.PyGet | app_hf.py:37 | `get` succeeds exactly on a dict |
| Json.JsProp | main.py:531 | property access throws exactly on undefined and null |
| Json.JsIndex0 | main.py:531 | indexing throws exactly on undefined and null |
| Json.JsToString | main.py:533 | `+=` appends a string content unchanged |
| Lite.StatusFor | app_hf_lite.py:21-34 | "🟢 网络连接正常" exactly for 200, "🟡 网络连接异常" exactly for other statuses, else `"🔴 网络不可用: "` plus at most 50 characters of the error |
| Lite.ServiceMonitor.constructor | app_hf_lite.py:19 | the status starts as "❓ 检查中..." |
| Lite.ProbeReplacesCheckingStatus | app_hf_lite.py:19-34 | no probe leaves the initial "❓ 检查中..."; an error status keeps the head of the error text |
| Lite.ServiceMonitor.CheckServiceStatus | app_hf_lite.py:21-34 | the global status becomes `StatusFor(probe)` and is returned |
| Lite.SimulateApiResponse | app_hf_lite.py:36-46 | the three models with a canned reply quote the message; any other model gets "未知模型的模拟响应" |
| Lite.SimulatedReplyIdentifies | app_hf_lite.py:40-46 | equal canned replies come from the same model and message, and the fixed text is never a canned reply |
| Lite.LiteRequestBody | app_hf_lite.py:63-68 | the POST body holds only the model and a single user message, with no `stream` key |
| Lite.LiteReply | app_hf_lite.py:56-77 | the canned reply unless the service answers 200 with a decodable body; then the `content` at `choices[0].message` (defaulting to the canned reply), and the canned reply when walking the body raises |
| Lite.LiteReplyPrefersService | app_hf_lite.py:69-72 | a completion's content wins over the canned reply; a 200 body without `choices` keeps the canned reply |
| Lite.LiteReplyReadsCompletion | app_hf_lite.py:69-72 | a full completion document gives its first choice's reply; one with an empty `choices` keeps the canned reply |
| Lite.LiteChat.ChatFn | app_hf_lite.py:48-80 | a blank message leaves the history unchanged; otherwise exactly one turn `[message, LiteReply]` is appended; the textbox is cleared |
| Lite.LiteChat.constructor | app_hf_lite.py:139-143 | the chat starts with an empty history |
| Lite.LiteChat.Clear | app_hf_lite.py:202 | clearing empties the history |
| Enhanced.EscapeChar | main.py:606-609 | the five characters become references starting with '&', others stay; no `< > " '` in the result |
| Enhanced.EscapeHtml | main.py:605-610 | the result contains none of `< > " '` and is no shorter than the input |
| Enhanced.EscapeRoundTrip | main.py:605-610 | decoding the five references gives back the input |
| Enhanced.EscapeKeepsPlainText | main.py:605-610 | a text with none of the five characters is returned unchanged |
| Enhanced.EscapeAppend | main.py:605-610 | escaping works character by character, so it distributes over concatenation |
| Enhanced.PayloadText | main.py:529-539 | a payload that fails to parse adds nothing |
| Enhanced.DeltaContent | main.py:531 | `choices[0].delta.content` throws on an undefined or null payload and on an object without `choices` |
| Enhanced.ReadLines | main.py:521-541 | lines opening with the `[DONE]` line add nothing |
| Enhanced.ReadChunk | main.py:518-541 | a chunk without a line break is read as its single line |
| Enhanced.ReadStream | main.py:511-542 | no chunks show nothing; a single chunk shows what that chunk adds |
| Enhanced.ReadResponse | main.py:511-542 | the outer read loop's `fullText` is `ReadStream` of the chunks, in order |
| Enhanced.ReadChunkInto | main.py:518-541 | the inner line loop, with `break` on `[DONE]`, appends exactly what the chunk adds |
| Enhanced.ReadStreamAppend | main.py:511-542 | chunks are read independently and their texts concatenated in order |
| Enhanced.DoneChunkAddsNothing | main.py:521-527 | a chunk that opens with the `[DONE]` line adds nothing |
| Enhanced.DoneEndsOnlyItsChunk | main.py:511-527 | `[DONE]` skips the rest of its own chunk only; later chunks are still read |
| Enhanced.OtherLinesAddNothing | main.py:521-523 | lines not starting with `data: ` add nothing |
| Enhanced.EnhancedChat | main.py:663-696 | 200 with the provider's result, 408 with the fixed timeout text on timeout, 500 with `"API call failed: …"` on another failure, 500 `"Request processing failed: …"` for a body that does not decode or is not a dict |
| Enhanced.TimeoutIsTheOnly408 | main.py:674-692 | status 408 means exactly that a `TimeoutError` reached the `except asyncio.TimeoutError` clause: the 120-second limit or one the provider raises itself (the same class since Python 3.11); the provider is consulted only for a dict body |
| Enhanced.Health | main.py:635-660 | `success` exactly when `browser_pool` exists and is truthy; version "v3.1.0"; an exception is reported with its text |
| StreamRoundTrip.PayloadOfFrame | app_hf_stable.py:506-515 | the page's property path finds a dumped chunk frame's delta content |
| StreamRoundTrip.ReadFrame | main.py:518-541 | a frame read as its own chunk adds exactly its delta content, and `[DONE]` adds nothing |
| StreamRoundTrip.ReadFrames | main.py:511-542 | reading the frames chunk by chunk gives the concatenated delta contents |
| StreamRoundTrip.ReadFrameThen | main.py:518-541 | a chunk frame followed in the same read by more text adds its delta content, and the read goes on with the rest |
| StreamRoundTrip.ReadGroup | main.py:518-541 | a read delivering several whole frames, `[DONE]` at most last, adds their delta contents in order |
| StreamRoundTrip.ReadGroups | main.py:511-542 | however whole frames are grouped into reads, the page accumulates their delta contents |
| StreamRoundTrip.GroupedStreamRoundTrip | app_hf_stable.py:487-518 | for any grouping of the stream's frames into reads of whole frames, the page shows the reply's words joined by single spaces |
| StreamRoundTrip.StreamRoundTrip | app_hf_stable.py:487-518 | the page shows the reply's words joined by single spaces, which split back into the reply's words |
| StreamRoundTrip.CorrectedHandlerRoundTrip | app_hf_stable.py:485-520 | the corrected handler's stream, read by the page, shows the completion content's words joined by single spaces |

## Left out

- The Toolbaz provider and `settings` (browser pool, sessions, rate limiting, real streaming) are not part of this model. Calls into them are parameters: `ProviderOutcome` for `main.py`, `PoolProbe` for its `browser_pool` check.
- Enhanced.EnhancedChat: the provider's result is taken to be a JSON document, which FastAPI answers with status 200. `return result` (`main.py:680`) passes on whatever the provider returns. A `Response` object it may return is sent with its own status and body, and that case is not modelled. This includes a streaming response, the kind the page asks for by default (`stream: streamEnabled`, `main.py:359, 490`). The provider is not part of this model, so what it returns for a stream request cannot be stated.
- `app_hf_real.py` is not part of this model. It forwards to the same unseen provider and shells out to install a browser. Its page script repeats `main.py`'s escaping and reading loop, which are modelled.
- `app_hf_simple.py` is not part of this model. It is a three-entry reply lookup behind a sleep, and its health probe is a live request.
- Network I/O (`requests`, `fetch`) is not executed. Every response, timeout and exception is an input.
- The request headers (API key, user agent) are not modelled; they do not affect any result the model describes.
- `time.time()` readings are inputs. The sleeps, `asyncio.wait_for`'s clock and the page's progress timers are left out. Only the content and order of frames are modelled, not their pacing.
- `json.dumps` and `JSON.parse` are not implemented. The stream round trip assumes a codec pair: parsing a dumped value gives it back, and a dumped value is one line and not `[DONE]`.
- The page script's `TextDecoder` is left out: each chunk is taken as already decoded text.
- JSON numbers are integers. Floating-point values, and the page's floating-point token estimate (`split(' ').length * 1.3`), are left out.
- HTML, CSS, DOM updates, Gradio layout, CORS, logging and server start-up are left out.
- The outer `except` of `chat_fn` (`app_hf_lite.py:74-76`) is not modelled. Nothing inside its `try` can raise once the inner bare `except` has caught the request's failures.
- The `chunk_content` variable of `generate_stream` is computed and never used, so it is not modelled.
- A request body that does not decode is modelled only for `main.py`'s handler. For the stable and full handlers the body is a parsed `ChatRequest`: missing fields are `None`, and a non-string user text reaches the `split` error.
- `ChatRequest` is narrower than the bodies the stable and full handlers accept.
  - Its `model` is an optional string, so no other `model` value is modelled. In the stable handler a `null`, boolean or number `model` gets the default template with that value echoed back. A list or object `model` cannot be hashed by `mock_responses.get` (`app_hf_stable.py:455`), so it ends in 500 with `"处理失败: unhashable type: …"`. In the full client every non-string `model` fails each comparison of the `if/elif` chain (`app_hf_full.py:114-133`) and takes the default branch.
  - Its `messages` is an optional list of role-and-content messages, so no other `messages` value is modelled, nor are the extra message keys the full client forwards to its proxy unchanged.
  - In the stable handler (`app_hf_stable.py:434-443`), `{}` and `""` iterate nothing and get 200 with the "Hello" reply. `null` or a number raises in `reversed`. A non-empty string or dict, or a non-dict element, raises on `.get` only when the backward scan reaches it before a user message. Each raise ends in 500. A non-dict element before the last user message is never reached.
  - In the full client only `messages[-1]` is read (`app_hf_full.py:70`). `null` or a number fails `len` (`app_hf_full.py:618`) and ends in 500. `{}` and `""` are falsy and get 200 with the mock for "". A non-empty string or dict, or a non-dict last element, raises and gets the client's 500 error. Non-dict elements before the last are never examined.
- The clear button of the Gradio page (`clear_history`, `app_hf.py:196-197, 202`) is not modelled. It returns the pair `(None, [])` to a single Chatbot output, and what the Chatbot shows then depends on Gradio's own handling of the returned value, which is not part of this model. The lite page's clear button hands the Chatbot `None` and is modelled by `Lite.LiteChat.Clear`.
- The stream round trip covers reads that end on frame boundaries. A read that ends inside a frame is not covered, because the page splits each read into lines on its own (`main.py:518-519`) and so drops a frame split across two reads.

## Findings

| source | as written | input that shows it | evidently intended | confidence | as-written member | corrected member |
|---|---|---|---|---|---|---|
| app_hf_stable.py:520 | `StreamingResponse` is used but never imported (only `HTMLResponse` and `JSONResponse` are, at line 15), so the NameError is caught and every stream request is answered with 500 | `{"model": "gpt-5", "messages": [{"role": "user", "content": "hi"}], "stream": true}` gives 500 `{"error": "处理失败: name 'StreamingResponse' is not defined"}` | the event stream of `generate_stream` | high, not executed | Stable.StreamRequestsFail | StreamRoundTrip.CorrectedHandlerRoundTrip |

=== FILE: enhanced.dfy ===
/** The enhanced service (main.py): the script of its chat page, which
    escapes user text for HTML and reads the event stream of a streaming
    completion, and its Python handlers, which map the outcome of the
    provider call and the provider's browser pool to HTTP answers. */
module Enhanced {
  import opened Wrappers
  import opened Text
  import opened Json
  import opened OpenAi

  // --------------------------------------------------------- HTML escaping

  /** The replacement of one character: the five characters
      `& < > " '` become character references (WHATWG HTML Living
      Standard, section 13.1.4), every other character stays. */
  function EscapeChar(c: char): (r: string)
    ensures c !in "&<>\"'" ==> r == [c]
    ensures r != [] && r[0] == (if c in "&<>\"'" then '&' else c)
    ensures forall i :: 0 <= i < |r| ==> r[i] !in "<>\"'"
  {
    match c
    case '&' => "&amp;"
    case '<' => "&lt;"
    case '>' => "&gt;"
    case '"' => "&quot;"
    case '\'' => "&#039;"
    case _ => [c]
  }

  /** `escapeHtml`: every character replaced at once, left to right. */
  function EscapeHtml(s: string): (r: string)
    ensures |r| >= |s|
    ensures forall i :: 0 <= i < |r| ==> r[i] !in "<>\"'"
  {
    if s == [] then [] else EscapeChar(s[0]) + EscapeHtml(s[1..])
  }

  /** Decoding of the five character references, left to right. */
  function Unescape(s: string): string
    decreases |s|
  {
    if s == [] then []
    else if s[0] != '&' then [s[0]] + Unescape(s[1..])
    else if "&amp;" <= s then "&" + Unescape(s[5..])
    else if "&lt;" <= s then "<" + Unescape(s[4..])
    else if "&gt;" <= s then ">" + Unescape(s[4..])
    else if "&quot;" <= s then "\"" + Unescape(s[6..])
    else if "&#039;" <= s then "'" + Unescape(s[6..])
    else [s[0]] + Unescape(s[1..])
  }

  // `UnescapeOne` for each of the five references, one lemma each: every
  // reference needs its own character-by-character argument that the
  // earlier branches of `Unescape` do not match.
  lemma UnescapeAmp(rest: string)
    ensures Unescape("&amp;" + rest) == "&" + Unescape(rest)
  {
    var e := "&amp;" + rest;
    assert "&amp;" <= e && e[5..] == rest;
  }

  lemma UnescapeLt(rest: string)
    ensures Unescape("&lt;" + rest) == "<" + Unescape(rest)
  {
    var e := "&lt;" + rest;
    assert e[1] == 'l';
    assert "&lt;" <= e && e[4..] == rest;
  }

  lemma UnescapeGt(rest: string)
    ensures Unescape("&gt;" + rest) == ">" + Unescape(rest)
  {
    var e := "&gt;" + rest;
    assert e[1] == 'g';
    assert "&gt;" <= e && e[4..] == rest;
  }

  lemma UnescapeQuot(rest: string)
    ensures Unescape("&quot;" + rest) == "\"" + Unescape(rest)
  {
    var e := "&quot;" + rest;
    assert e[1] == 'q';
    assert "&quot;" <= e && e[6..] == rest;
  }

  lemma UnescapeApos(rest: string)
    ensures Unescape("&#039;" + rest) == "'" + Unescape(rest)
  {
    var e := "&#039;" + rest;
    assert e[1] == '#';
    assert "&#039;" <= e && e[6..] == rest;
  }

  /** Decoding undoes the replacement of one character. */
  lemma UnescapeOne(c: char, rest: string)
    ensures Unescape(EscapeChar(c) + rest) == [c] + Unescape(rest)
  {
    if c == '&' {
      UnescapeAmp(rest);
    } else if c == '<' {
      UnescapeLt(rest);
    } else if c == '>' {
      UnescapeGt(rest);
    } else if c == '"' {
      UnescapeQuot(rest);
    } else if c == '\'' {
      UnescapeApos(rest);
    } else {
      var e := EscapeChar(c) + rest;
      assert e[0] == c && e[1..] == rest;
    }
  }

  /** Decoding the references gives back the escaped text. */
  lemma {:induction false} EscapeRoundTrip(s: string)
    ensures Unescape(EscapeHtml(s)) == s
  {
    if s != [] {
      UnescapeOne(s[0], EscapeHtml(s[1..]));
      EscapeRoundTrip(s[1..]);
    }
  }

  /** Text without any of the five characters is left as it is. */
  lemma {:induction false} EscapeKeepsPlainText(s: string)
    requires forall i :: 0 <= i < |s| ==> s[i] !in "&<>\"'"
    ensures EscapeHtml(s) == s
  {
    if s != [] {
      EscapeKeepsPlainText(s[1..]);
    }
  }

  /** Escaping works character by character: escaping a concatenation
      escapes each part. */
  lemma {:induction false} EscapeAppend(a: string, b: string)
    ensures EscapeHtml(a + b) == EscapeHtml(a) + EscapeHtml(b)
  {
    if a != [] {
      assert (a + b)[1..] == a[1..] + b;
      EscapeAppend(a[1..], b);
    } else {
      assert a + b == b;
    }
  }

  // --------------------------------------------------------- stream reader

  /** `json.choices[0].delta.content`, or the TypeError it throws. */
  function DeltaContent(v: JsValue): (r: Outcome<JsValue>)
    ensures v == Undefined || v == Defined(JNull) ==> r.Raised?
    ensures v.Defined? && v.json.JObj? && "choices" !in v.json.fields ==> r.Raised?
  {
    var choices :- JsProp(v, "choices");
    var first :- JsIndex0(choices);
    var delta :- JsProp(first, "delta");
    JsProp(delta, "content")
  }

  /** What one `data: ` payload adds to `fullText`: nothing when
      `JSON.parse` throws (`parse` returns None), when the property path
      throws, or when the content is falsy; otherwise the content as
      `+=` converts it. */
  function PayloadText(data: string, parse: string -> Option<Json>): (t: string)
    ensures parse(data).None? ==> t == ""
  {
    match parse(data)
    case None => ""
    case Some(j) =>
      match DeltaContent(Defined(j))
      case Raised(_) => ""
      case Ok(content) => if JsTruthy(content) then JsToString(content.json) else ""
  }

  /** What the lines of one chunk add: lines that do not start with
      `data: ` are skipped, and a `[DONE]` payload ends the chunk. */
  function ReadLines(lines: seq<string>, parse: string -> Option<Json>): (text: string)
    ensures lines != [] && "data: " <= lines[0] && lines[0][6..] == "[DONE]" ==> text == ""
  {
    if lines == [] then ""
    else if "data: " <= lines[0] then
      if lines[0][6..] == "[DONE]" then ""
      else PayloadText(lines[0][6..], parse) + ReadLines(lines[1..], parse)
    else ReadLines(lines[1..], parse)
  }

  /** What one decoded chunk adds: its `split('\n')` lines. */
  function ReadChunk(chunk: string, parse: string -> Option<Json>): (text: string)
    ensures '\n' !in chunk ==> text == ReadLines([chunk], parse)
  {
    ReadLines(SplitLines(chunk), parse)
  }

  /** `fullText` after reading `chunks` in order. */
  function ReadStream(chunks: seq<string>, parse: string -> Option<Json>): (text: string)
    ensures chunks == [] ==> text == ""
    ensures |chunks| == 1 ==> text == ReadChunk(chunks[0], parse)
  {
    var parts := seq(|chunks|, i requires 0 <= i < |chunks| => ReadChunk(chunks[i], parse));
    if |chunks| == 1 then
      assert parts == [parts[0]];
      ConcatSingle(parts[0]);
      Concat(parts)
    else Concat(parts)
  }

  function Concat(parts: seq<string>): string {
    if parts == [] then "" else Concat(parts[..|parts| - 1]) + parts[|parts| - 1]
  }

  lemma ConcatSingle(x: string)
    ensures Concat([x]) == x
  {
    assert [x][..0] == [];
  }

  lemma {:induction false} ConcatAppend(a: seq<string>, b: seq<string>)
    ensures Concat(a + b) == Concat(a) + Concat(b)
    decreases |b|
  {
    if b == [] {
      assert a + b == a;
    } else {
      var ab := a + b;
      assert ab[..|ab| - 1] == a + b[..|b| - 1];
      ConcatAppend(a, b[..|b| - 1]);
    }
  }

  /** The read loop of `sendMessage`: the outer loop takes the chunks in
      order (the reader reports `done` after the last). */
  method ReadResponse(chunks: seq<string>, parse: string -> Option<Json>) returns (fullText: string)
    ensures fullText == ReadStream(chunks, parse)
  {
    fullText := "";
    var k := 0;
    while k < |chunks|
      invariant 0 <= k <= |chunks|
      invariant fullText == ReadStream(chunks[..k], parse)
    {
      assert chunks[..k + 1] == chunks[..k] + [chunks[k]];
      ReadStreamSnoc(chunks[..k], chunks[k], parse);
      fullText := ReadChunkInto(fullText, chunks[k], parse);
      k := k + 1;
    }
    assert chunks[..|chunks|] == chunks;
  }

  /** The inner loop over the lines of one chunk, appending to `fullText`;
      `break` on `[DONE]` leaves only this loop. */
  method ReadChunkInto(text: string, chunk: string, parse: string -> Option<Json>) returns (fullText: string)
    ensures fullText == text + ReadChunk(chunk, parse)
  {
    fullText := text;
    var lines := SplitLines(chunk);
    var i := 0;
    while i < |lines|
      invariant 0 <= i <= |lines|
      invariant fullText + ReadLines(lines[i..], parse) == text + ReadLines(lines, parse)
    {
      var line := lines[i];
      assert lines[i..][0] == line && lines[i..][1..] == lines[i + 1..];
      if "data: " <= line {
        var data := line[6..];
        if data == "[DONE]" {
          break;
        }
        fullText := fullText + PayloadText(data, parse);
      }
      i := i + 1;
    }
  }

  /** Chunks are read independently and their texts concatenated in order. */
  lemma ReadStreamAppend(a: seq<string>, b: seq<string>, parse: string -> Option<Json>)
    ensures ReadStream(a + b, parse) == ReadStream(a, parse) + ReadStream(b, parse)
  {
    var ta := seq(|a|, i requires 0 <= i < |a| => ReadChunk(a[i], parse));
    var tb := seq(|b|, i requires 0 <= i < |b| => ReadChunk(b[i], parse));
    var ab := a + b;
    assert seq(|ab|, i requires 0 <= i < |ab| => ReadChunk(ab[i], parse)) == ta + tb;
    ConcatAppend(ta, tb);
  }

  /** Reading one more chunk appends what that chunk adds. */
  lemma ReadStreamSnoc(cs: seq<string>, c: string, parse: string -> Option<Json>)
    ensures ReadStream(cs + [c], parse) == ReadStream(cs, parse) + ReadChunk(c, parse)
  {
    var t := seq(1, i requires 0 <= i < 1 => ReadChunk([c][i], parse));
    assert t == [ReadChunk(c, parse)];
    ConcatSingle(ReadChunk(c, parse));
    ReadStreamAppend(cs, [c], parse);
  }

  /** A chunk that opens with the `[DONE]` line adds nothing. */
  lemma DoneChunkAddsNothing(rest: string, parse: string -> Option<Json>)
    ensures ReadChunk("data: [DONE]\n" + rest, parse) == ""
  {
    var line := "data: [DONE]";
    assert line + "\n" + rest == "data: [DONE]\n" + rest;
    SplitLinesCons(line, rest);
    var lines := [line] + SplitLines(rest);
    assert lines[0] == line;
    assert "data: " <= line && line[6..] == "[DONE]";
  }

  /** A `[DONE]` line ends only its own chunk: the rest of that chunk is
      skipped, and the chunks after it are still read. */
  lemma DoneEndsOnlyItsChunk(before: seq<string>, rest: string, after: seq<string>, parse: string -> Option<Json>)
    ensures ReadStream(before + ["data: [DONE]\n" + rest] + after, parse)
         == ReadStream(before, parse) + ReadStream(after, parse)
  {
    var c := "data: [DONE]\n" + rest;
    DoneChunkAddsNothing(rest, parse);
    ReadStreamSnoc(before, c, parse);
    ReadStreamAppend(before + [c], after, parse);
  }

  /** Lines that are not `data: ` lines add nothing. */
  lemma {:induction false} OtherLinesAddNothing(lines: seq<string>, parse: string -> Option<Json>)
    requires forall i :: 0 <= i < |lines| ==> !("data: " <= lines[i])
    ensures ReadLines(lines, parse) == ""
  {
    if lines != [] {
      OtherLinesAddNothing(lines[1..], parse);
    }
  }

  // ------------------------------------------------- completion endpoint

  /** What the unseen provider call ends in: a result, a `TimeoutError`
      reaching the `except asyncio.TimeoutError` clause, or another exception
      with its text. The timeout is the 120-second limit of
      `asyncio.wait_for` or a `TimeoutError` the provider raises itself;
      from Python 3.11 on, `asyncio.TimeoutError` is the built-in
      `TimeoutError`, so the clause catches both. */
  datatype ProviderOutcome = Returned(result: Json) | ProviderTimedOut | ProviderFailed(message: string)

  const TimeoutMessage: string := "Request timeout. The browser may be slow or the API may be overloaded."

  function ApiCallFailed(message: string): string {
    "API call failed: " + message + ". This might be due to rate limiting or network issues."
  }

  function ProcessingFailed(message: string): string {
    "Request processing failed: " + message
  }

  /** `enhanced_chat_completions`: `body` is the outcome of
      `request.json()`; the log line reads `data.get(...)` before the
      provider is called, so a body that is not an object fails there;
      `provider` stands for `provider.chat_completion`. */
  function EnhancedChat(body: Outcome<Json>, provider: Json -> ProviderOutcome): (reply: HttpReply)
    ensures reply.status in {200, 408, 500}
    ensures body.Raised? ==> reply == HttpReply(500, JsonBody(ErrorJson(JStr(ProcessingFailed(body.message)))))
    ensures body.Ok? && !body.value.JObj? ==>
      reply == HttpReply(500, JsonBody(ErrorJson(JStr(ProcessingFailed(NoAttribute(body.value, "get"))))))
    ensures body.Ok? && body.value.JObj? ==>
      match provider(body.value)
      case Returned(result) => reply == HttpReply(200, JsonBody(result))
      case ProviderTimedOut => reply == HttpReply(408, JsonBody(ErrorJson(JStr(TimeoutMessage))))
      case ProviderFailed(e) => reply == HttpReply(500, JsonBody(ErrorJson(JStr(ApiCallFailed(e)))))
  {
    match body
    case Raised(e) => HttpReply(500, JsonBody(ErrorJson(JStr(ProcessingFailed(e)))))
    case Ok(data) =>
      if !data.JObj? then HttpReply(500, JsonBody(ErrorJson(JStr(ProcessingFailed(NoAttribute(data, "get"))))))
      else
        match provider(data)
        case Returned(result) => HttpReply(200, JsonBody(result))
        case ProviderTimedOut => HttpReply(408, JsonBody(ErrorJson(JStr(TimeoutMessage))))
        case ProviderFailed(e) => HttpReply(500, JsonBody(ErrorJson(JStr(ApiCallFailed(e)))))
  }

  /** Status 408 means exactly that the provider call ended in a
      `TimeoutError` on an object body, and the provider is consulted only
      for an object body. */
  lemma TimeoutIsTheOnly408(body: Outcome<Json>, p1: Json -> ProviderOutcome, p2: Json -> ProviderOutcome)
    ensures EnhancedChat(body, p1).status == 408 <==> body.Ok? && body.value.JObj? && p1(body.value).ProviderTimedOut?
    ensures !(body.Ok? && body.value.JObj?) ==> EnhancedChat(body, p1) == EnhancedChat(body, p2)
  {
  }

  // ---------------------------------------------------------------- health

  /** What `/health` finds on the provider: no `browser_pool` attribute,
      one with the given truthiness, or an exception with its text. */
  datatype PoolProbe = NoPool | Pool(truthy: bool) | ProbeRaised(message: string)

  datatype HealthReport = HealthReport(status: string, success: bool, version: string, environment: string)

  const Version: string := "v3.1.0"

  /** `/health` */
  function Health(probe: PoolProbe): (h: HealthReport)
    ensures h.success <==> probe == Pool(true)
    ensures h.version == Version
    ensures probe.ProbeRaised? ==> h.status == "🔴 服务异常: " + probe.message
  {
    match probe
    case Pool(true) => HealthReport("🟢 服务正常运行", true, Version, "HuggingFace Spaces - 增强版")
    case ProbeRaised(e) => HealthReport("🔴 服务异常: " + e, false, Version, "HuggingFace Spaces - 错误")
    case _ => HealthReport("🟡 浏览器正在初始化", false, Version, "HuggingFace Spaces - 初始化中")
  }
}

=== FILE: full.dfy ===
/** The full demo service (app_hf_full.py): a chat client that forwards to
    an optional proxy and otherwise answers from per-model templates, and
    the `/chat` endpoint that maps its result to an HTTP reply. */
module Full {
  import opened Wrappers
  import opened Text
  import opened Json
  import opened OpenAi
  import Stable

  // ---------------------------------------------------------- model list

  datatype ModelName = ModelName(id: string, name: string)

  /** `get_available_models`: the six known models with display names. */
  function AvailableModels(): (ms: seq<ModelName>)
    ensures |ms| == |ModelIds| && forall i :: 0 <= i < |ms| ==> ms[i].id == ModelIds[i]
    ensures ms[0].name == "Toolbaz v4.5 Fast" && ms[1].name == "Gemini 2.5 Flash" && ms[2].name == "Gemini 2.5 Pro"
    ensures ms[3].name == "Claude Sonnet 4" && ms[4].name == "GPT-5" && ms[5].name == "Grok 4 Fast"
  {
    [ModelName("toolbaz-v4.5-fast", "Toolbaz v4.5 Fast"),
     ModelName("gemini-2.5-flash", "Gemini 2.5 Flash"),
     ModelName("gemini-2.5-pro", "Gemini 2.5 Pro"),
     ModelName("claude-sonnet-4", "Claude Sonnet 4"),
     ModelName("gpt-5", "GPT-5"),
     ModelName("grok-4-fast", "Grok 4 Fast")]
  }

  // ------------------------------------------------------------ templates

  const ToolbazTemplate: Template :=
    Template("[Toolbaz v4.5 Fast] 您好！我收到了您的消息：",
      "。这是通过Toolbaz-2API服务处理的回复。在实际部署中，这里会是Toolbaz网站的真实AI响应。\n\n"
      + "注意：当前运行在HuggingFace Spaces环境中，由于网络限制，显示的是模拟响应。完整功能请参考右侧的部署指南。")
  // The other five known models answer with the stable service's templates.
  const GeminiFlashTemplate: Template := Stable.GeminiFlashTemplate
  const GeminiProTemplate: Template := Stable.GeminiProTemplate
  const ClaudeTemplate: Template := Stable.ClaudeTemplate
  const GptTemplate: Template := Stable.GptTemplate
  const GrokTemplate: Template := Stable.GrokTemplate
  const DefaultTemplate: Template :=
    Template("[AI模型] 收到消息：",
      "。这是模型的默认响应。在实际部署中，您将获得所选模型的完整功能。")

  /** The if/elif chain of `_create_mock_response`. */
  function ReplyTemplate(model: string): (t: Template)
    ensures IsKnownModel(model) <==> t != DefaultTemplate
  {
    if model == "toolbaz-v4.5-fast" then ToolbazTemplate
    else if model == "gemini-2.5-flash" then GeminiFlashTemplate
    else if model == "gemini-2.5-pro" then GeminiProTemplate
    else if model == "claude-sonnet-4" then ClaudeTemplate
    else if model == "gpt-5" then GptTemplate
    else if model == "grok-4-fast" then GrokTemplate
    else DefaultTemplate
  }

  function Reply(model: string, text: string): string {
    ReplyTemplate(model).Fill(text)
  }

  lemma OpensWith(t: Template, tag: string, rest: string, text: string)
    requires t.lead == tag + rest
    ensures tag <= t.Fill(text)
  {
    assert t.Fill(text) == tag + (rest + "'" + text + "'" + t.trail);
  }

  // One lemma per known model, each applying `OpensWith` to that model's
  // template; `RepliesOpenWithModelName` dispatches on the model.
  lemma ToolbazOpensWithName(text: string)
    ensures "[" + "Toolbaz v4.5 Fast" + "]" <= Reply("toolbaz-v4.5-fast", text)
  {
    OpensWith(ToolbazTemplate, "[" + "Toolbaz v4.5 Fast" + "]", " 您好！我收到了您的消息：", text);
  }

  lemma GeminiFlashOpensWithName(text: string)
    ensures "[" + "Gemini 2.5 Flash" + "]" <= Reply("gemini-2.5-flash", text)
  {
    OpensWith(GeminiFlashTemplate, "[" + "Gemini 2.5 Flash" + "]", " 我理解您的问题：", text);
  }

  lemma GeminiProOpensWithName(text: string)
    ensures "[" + "Gemini 2.5 Pro" + "]" <= Reply("gemini-2.5-pro", text)
  {
    OpensWith(GeminiProTemplate, "[" + "Gemini 2.5 Pro" + "]", " 您的问题是：", text);
  }

  lemma ClaudeOpensWithName(text: string)
    ensures "[" + "Claude Sonnet 4" + "]" <= Reply("claude-sonnet-4", text)
  {
    OpensWith(ClaudeTemplate, "[" + "Claude Sonnet 4" + "]", " 我收到了您的消息：", text);
  }

  lemma GptOpensWithName(text: string)
    ensures "[" + "GPT-5" + "]" <= Reply("gpt-5", text)
  {
    OpensWith(GptTemplate, "[" + "GPT-5" + "]", " 您的消息是：", text);
  }

  lemma GrokOpensWithName(text: string)
    ensures "[" + "Grok 4 Fast" + "]" <= Reply("grok-4-fast", text)
  {
    OpensWith(GrokTemplate, "[" + "Grok 4 Fast" + "]", " 您说了：", text);
  }

  /** Each known model's reply opens with its display name in brackets. */
  lemma RepliesOpenWithModelName(m: ModelName, text: string)
    requires m in AvailableModels()
    ensures "[" + m.name + "]" <= Reply(m.id, text)
  {
    if m == ModelName("toolbaz-v4.5-fast", "Toolbaz v4.5 Fast") {
      ToolbazOpensWithName(text);
    } else if m == ModelName("gemini-2.5-flash", "Gemini 2.5 Flash") {
      GeminiFlashOpensWithName(text);
    } else if m == ModelName("gemini-2.5-pro", "Gemini 2.5 Pro") {
      GeminiProOpensWithName(text);
    } else if m == ModelName("claude-sonnet-4", "Claude Sonnet 4") {
      ClaudeOpensWithName(text);
    } else if m == ModelName("gpt-5", "GPT-5") {
      GptOpensWithName(text);
    } else {
      assert m == ModelName("grok-4-fast", "Grok 4 Fast");
      GrokOpensWithName(text);
    }
  }

  /** The stable service answers five of the known models with the same
      text; the fast Toolbaz model and unknown models get other texts. */
  lemma AgreesWithStableExceptToolbazAndDefault(model: string, text: string)
    ensures Reply(model, text) == Stable.Reply(model, text) <==> IsKnownModel(model) && model != "toolbaz-v4.5-fast"
  {
    if !IsKnownModel(model) || model == "toolbaz-v4.5-fast" {
      assert |Reply(model, text)| != |Stable.Reply(model, text)|;
    }
  }

  // ------------------------------------------------------------ the client

  /** `messages[-1].get("content", "") if messages else ""`: the last
      message's content whatever its role. */
  function LastContent(ms: seq<RequestMessage>): (text: Json)
    ensures ms == [] ==> text == JStr("")
    ensures forall before, last :: ms == before + [last] ==> text == last.content.GetOr(JStr(""))
  {
    if ms == [] then JStr("") else ms[|ms| - 1].content.GetOr(JStr(""))
  }

  /** Unlike the stable service, which quotes the last user message, the
      client quotes the last message even when the assistant wrote it. */
  lemma QuotesLastMessageWhateverItsRole(question: Json, answer: Json)
    ensures var ms := [RequestMessage(Some(JStr("user")), Some(question)), RequestMessage(Some(JStr("assistant")), Some(answer))];
      LastContent(ms) == answer && Stable.UserMessage(ms) == question
  {
    var ms := [RequestMessage(Some(JStr("user")), Some(question)), RequestMessage(Some(JStr("assistant")), Some(answer))];
    assert Stable.IsUser(ms[0]) && !Stable.IsUser(ms[1]);
  }

  /** `_create_mock_response`: the `stream` flag is accepted and ignored; a
      non-string text has no `split`. */
  function MockResponse(text: Json, model: string, stream: Json, idClock: nat, createdClock: nat): (r: Outcome<Completion>)
    ensures r.Ok? <==> text.JStr?
    ensures r.Ok? ==> r.value == BuildCompletion(model, text.s, Reply(model, text.s), idClock, createdClock)
    ensures r.Raised? ==> r.message == NoAttribute(text, "split")
  {
    if !text.JStr? then Raised(NoAttribute(text, "split"))
    else Ok(BuildCompletion(model, text.s, Reply(model, text.s), idClock, createdClock))
  }

  /** `_try_real_api`: the proxy is asked only when `TOOLBAZ_PROXY_URL` is
      set and non-empty; its decoded body counts only with status 200, and a
      failure of any kind gives None. `post` stands for `requests.post`. */
  function TryRealApi(proxyUrl: Option<string>, ms: seq<RequestMessage>, model: string,
                      post: (string, Json) -> NetOutcome): (r: Option<Json>)
    ensures proxyUrl.None? || proxyUrl.value == "" ==> r.None?
    ensures r.Some? ==> var reply := post(proxyUrl.value + "/v1/chat/completions", ChatBody(model, MessagesJson(ms), Some(false)));
      reply.Responded? && reply.status == 200 && reply.body == Ok(r.value)
    ensures proxyUrl.Some? && proxyUrl.value != "" ==>
      var reply := post(proxyUrl.value + "/v1/chat/completions", ChatBody(model, MessagesJson(ms), Some(false)));
      reply.Responded? && reply.status == 200 && reply.body.Ok? ==> r == Some(reply.body.value)
  {
    if proxyUrl.None? || proxyUrl.value == "" then None
    else
      var reply := post(proxyUrl.value + "/v1/chat/completions", ChatBody(model, MessagesJson(ms), Some(false)));
      if reply.Responded? && reply.status == 200 && reply.body.Ok? then Some(reply.body.value) else None
  }

  datatype ClientResult = Proxied(json: Json) | Mocked(completion: Completion) | ClientError(error: string)

  /** `ToolbazAPIClient.chat_completion`: the proxy's answer when it is
      truthy, else the mock; an exception becomes an error value. */
  function ChatCompletion(ms: seq<RequestMessage>, model: string, stream: Json, proxyUrl: Option<string>,
                          post: (string, Json) -> NetOutcome, idClock: nat, createdClock: nat): (r: ClientResult)
    ensures var answer := TryRealApi(proxyUrl, ms, model, post);
      r.Proxied? <==> answer.Some? && PyTruthy(answer.value)
    ensures r.Proxied? ==> PyTruthy(r.json) && TryRealApi(proxyUrl, ms, model, post) == Some(r.json)
    ensures r.Mocked? ==> && LastContent(ms).JStr?
                          && r.completion == BuildCompletion(model, LastContent(ms).s, Reply(model, LastContent(ms).s), idClock, createdClock)
    ensures r.ClientError? ==> r.error == "API调用失败: " + NoAttribute(LastContent(ms), "split")
    ensures !r.Proxied? ==> (r.Mocked? <==> LastContent(ms).JStr?)
  {
    var userMessage := LastContent(ms);
    var answer := TryRealApi(proxyUrl, ms, model, post);
    if answer.Some? && PyTruthy(answer.value) then Proxied(answer.value)
    else match MockResponse(userMessage, model, stream, idClock, createdClock)
      case Ok(c) => Mocked(c)
      case Raised(e) => ClientError("API调用失败: " + e)
  }

  /** The `stream` flag never changes what the client returns. */
  lemma StreamIgnored(ms: seq<RequestMessage>, model: string, s1: Json, s2: Json, proxyUrl: Option<string>,
                      post: (string, Json) -> NetOutcome, idClock: nat, createdClock: nat)
    ensures ChatCompletion(ms, model, s1, proxyUrl, post, idClock, createdClock)
         == ChatCompletion(ms, model, s2, proxyUrl, post, idClock, createdClock)
  {
  }

  // ---------------------------------------------------------- the endpoint

  /** Whether `response.get("error")` is truthy, or raises because the
      proxy's answer is not a dict. */
  predicate ReportsError(r: ClientResult) {
    match r
    case Mocked(_) => false
    case ClientError(_) => true
    case Proxied(j) => !j.JObj? || ("error" in j.fields && PyTruthy(j.fields["error"]))
  }

  /** `chat_endpoint`: defaults for missing fields, then 500 for a result
      that reports an error and 200 with the result otherwise. */
  function ChatEndpoint(req: ChatRequest, proxyUrl: Option<string>, post: (string, Json) -> NetOutcome,
                        idClock: nat, createdClock: nat): (reply: HttpReply)
    ensures var r := ChatCompletion(req.messages.GetOr([]), req.model.GetOr(DefaultModel),
                                    req.stream.GetOr(JBool(false)), proxyUrl, post, idClock, createdClock);
      && (reply.status == 500 <==> ReportsError(r))
      && (reply.status != 500 ==> reply.status == 200)
      && (r.Mocked? ==> reply.body == CompletionBody(r.completion))
      && (r.ClientError? ==> reply.body == JsonBody(ErrorJson(JStr(r.error))))
      && (r.Proxied? && !ReportsError(r) ==> reply.body == JsonBody(r.json))
      && (r.Proxied? && !r.json.JObj? ==> reply.body == JsonBody(ErrorJson(JStr("处理失败: " + NoAttribute(r.json, "get")))))
      && (r.Proxied? && r.json.JObj? && ReportsError(r) ==> reply.body == JsonBody(ErrorJson(r.json.fields["error"])))
  {
    var r := ChatCompletion(req.messages.GetOr([]), req.model.GetOr(DefaultModel),
                            req.stream.GetOr(JBool(false)), proxyUrl, post, idClock, createdClock);
    match r
    case Mocked(c) => HttpReply(200, CompletionBody(c))
    case ClientError(e) => HttpReply(500, JsonBody(ErrorJson(JStr(e))))
    case Proxied(j) =>
      if !j.JObj? then HttpReply(500, JsonBody(ErrorJson(JStr("处理失败: " + NoAttribute(j, "get")))))
      else if "error" in j.fields && PyTruthy(j.fields["error"]) then HttpReply(500, JsonBody(ErrorJson(j.fields["error"])))
      else HttpReply(200, JsonBody(j))
  }

  /** Without a proxy, a request whose last message has string content gets
      the mock completion for the requested model (default
      "toolbaz-v4.5-fast") with status 200. */
  lemma NoProxyAnswersWithMock(req: ChatRequest, post: (string, Json) -> NetOutcome, idClock: nat, createdClock: nat)
    requires LastContent(req.messages.GetOr([])).JStr?
    ensures var model := req.model.GetOr(DefaultModel);
            var text := LastContent(req.messages.GetOr([])).s;
      ChatEndpoint(req, None, post, idClock, createdClock)
        == HttpReply(200, CompletionBody(BuildCompletion(model, text, Reply(model, text), idClock, createdClock)))
  {
  }
}

=== FILE: gradio.dfy ===
/** The Gradio front-end (app_hf.py): it turns the chat history into an
    OpenAI message list, posts it to the service, extracts the reply or an
    error text, keeps the conversation in a history of turns, and maps the
    model list and health probes of the service to what it shows. */
module Gradio {
  import opened Wrappers
  import opened Text
  import opened Json
  import opened OpenAi
  import Stable

  // ------------------------------------------------------------- history

  /** One `[user, assistant]` pair of the Gradio chat history; the reply is
      `None` (JNull) until the service has answered. */
  datatype Turn = Turn(user: string, reply: Json)

  /** One `{"role": ..., "content": ...}` element of the request. */
  datatype ChatMessage = ChatMessage(role: string, content: Json)

  /** The messages one past turn contributes: the user's text, then the
      reply only when it is truthy. */
  function TurnMessages(t: Turn): (ms: seq<ChatMessage>)
    ensures |ms| == (if PyTruthy(t.reply) then 2 else 1) && ms[0] == ChatMessage("user", JStr(t.user))
    ensures |ms| == 2 ==> ms[1] == ChatMessage("assistant", t.reply)
  {
    [ChatMessage("user", JStr(t.user))] + if PyTruthy(t.reply) then [ChatMessage("assistant", t.reply)] else []
  }

  /** The messages a whole history contributes, turn by turn. */
  function Translate(history: seq<Turn>): (ms: seq<ChatMessage>)
    ensures |ms| >= |history|
    ensures forall i :: 0 <= i < |ms| ==> ms[i].role == "user" || ms[i].role == "assistant"
  {
    if history == [] then [] else Translate(history[..|history| - 1]) + TurnMessages(history[|history| - 1])
  }

  /** Number of turns whose reply is truthy. */
  function RepliedTurns(history: seq<Turn>): nat {
    if history == [] then 0
    else RepliedTurns(history[..|history| - 1]) + if PyTruthy(history[|history| - 1].reply) then 1 else 0
  }

  /** The request's message list: the history, then the new user text. */
  function RequestMessages(history: seq<Turn>, message: string): (ms: seq<ChatMessage>)
    ensures |ms| == |history| + RepliedTurns(history) + 1
    ensures ms[|ms| - 1] == ChatMessage("user", JStr(message))
  {
    TranslateLength(history);
    Translate(history) + [ChatMessage("user", JStr(message))]
  }

  lemma {:induction false} TranslateLength(history: seq<Turn>)
    ensures |Translate(history)| == |history| + RepliedTurns(history)
  {
    if history != [] {
      TranslateLength(history[..|history| - 1]);
    }
  }

  /** Translating a history piecewise gives the same messages: each turn is
      translated on its own, in history order. */
  lemma {:induction false} TranslateAppend(h1: seq<Turn>, h2: seq<Turn>)
    ensures Translate(h1 + h2) == Translate(h1) + Translate(h2)
    decreases |h2|
  {
    if h2 == [] {
      assert h1 + h2 == h1;
    } else {
      var h := h1 + h2;
      assert h[..|h| - 1] == h1 + h2[..|h2| - 1];
      assert h[|h| - 1] == h2[|h2| - 1];
      TranslateAppend(h1, h2[..|h2| - 1]);
    }
  }

  /** The contents of the user messages, in order. */
  function UserContents(ms: seq<ChatMessage>): seq<Json> {
    if ms == [] then []
    else UserContents(ms[..|ms| - 1]) + if ms[|ms| - 1].role == "user" then [ms[|ms| - 1].content] else []
  }

  lemma {:induction false} UserContentsAppend(a: seq<ChatMessage>, b: seq<ChatMessage>)
    ensures UserContents(a + b) == UserContents(a) + UserContents(b)
    decreases |b|
  {
    if b == [] {
      assert a + b == a;
    } else {
      var ab := a + b;
      assert ab[..|ab| - 1] == a + b[..|b| - 1];
      UserContentsAppend(a, b[..|b| - 1]);
    }
  }

  /** The user messages of the translation are the history's user texts in
      history order: no turn is dropped, duplicated or reordered. */
  lemma {:induction false} TranslateKeepsUserTexts(history: seq<Turn>)
    ensures UserContents(Translate(history)) == seq(|history|, i requires 0 <= i < |history| => JStr(history[i].user))
  {
    if history != [] {
      var init, last := history[..|history| - 1], history[|history| - 1];
      TranslateKeepsUserTexts(init);
      UserContentsAppend(Translate(init), TurnMessages(last));
      var tail := TurnMessages(last);
      assert UserContents(tail) == [JStr(last.user)] by {
        var u := [ChatMessage("user", JStr(last.user))];
        assert UserContents(u) == [JStr(last.user)] by {
          assert u[..0] == [];
        }
        if PyTruthy(last.reply) {
          assert tail[..|tail| - 1] == u;
        } else {
          assert tail == u;
        }
      }
    }
  }

  /** `chat_completion`'s loop: the message list, built by appending. */
  method BuildMessages(history: seq<Turn>, message: string) returns (messages: seq<ChatMessage>)
    ensures messages == RequestMessages(history, message)
  {
    messages := [];
    for i := 0 to |history|
      invariant messages == Translate(history[..i])
    {
      assert history[..i + 1][..i] == history[..i];
      messages := messages + [ChatMessage("user", JStr(history[i].user))];
      if PyTruthy(history[i].reply) {
        messages := messages + [ChatMessage("assistant", history[i].reply)];
      }
    }
    assert history[..|history|] == history;
    messages := messages + [ChatMessage("user", JStr(message))];
  }

  // ------------------------------------------------------------- request

  function MessageJson(m: ChatMessage): Json {
    JObj(map["role" := JStr(m.role), "content" := m.content])
  }

  /** The JSON body: the chosen model, the messages and `stream: False`. */
  function RequestBody(model: string, ms: seq<ChatMessage>): (j: Json)
    ensures j.JObj? && "model" in j.fields && "stream" in j.fields && "messages" in j.fields
    ensures j.fields["model"] == JStr(model) && j.fields["stream"] == JBool(false)
    ensures j.fields["messages"] == JArr(seq(|ms|, i requires 0 <= i < |ms| => MessageJson(ms[i])))
  {
    ChatBody(model, JArr(seq(|ms|, i requires 0 <= i < |ms| => MessageJson(ms[i]))), Some(false))
  }

  function ChatUrl(apiBase: string): string {
    apiBase + "/v1/chat/completions"
  }

  // --------------------------------------------------------------- reply

  const TimeoutReply: string := "❌ 请求超时，可能是网络问题或服务未启动"

  function RequestFailed(message: string): Json {
    JStr("❌ 请求失败: " + message)
  }

  function ApiError(status: nat, text: string): string {
    "❌ API错误: " + NatToString(status) + " - " + text
  }

  /** What `chat_completion` returns for the outcome of its POST: the
      content at `choices[0].message.content` (default "") for status 200,
      an error text for any other status, and fixed or `str(e)`-carrying
      texts for a timeout and any other exception, including a body that
      does not decode and a body the extraction chain cannot walk. */
  function ReplyFor(outcome: NetOutcome): (reply: Json)
    ensures outcome.Responded? && outcome.status == 200 && outcome.body.Ok? ==>
      match PyReplyContent(outcome.body.value, JStr(""))
      case Ok(c) => reply == c
      case Raised(e) => reply == RequestFailed(e)
    ensures outcome.Responded? && outcome.status == 200 && outcome.body.Raised? ==> reply == RequestFailed(outcome.body.message)
    ensures outcome.Responded? && outcome.status != 200 ==> reply == JStr(ApiError(outcome.status, outcome.text))
    ensures outcome.TimedOut? ==> reply == JStr(TimeoutReply)
    ensures outcome.Failed? ==> reply == RequestFailed(outcome.message)
  {
    match outcome
    case Responded(status, text, body) =>
      if status != 200 then JStr(ApiError(status, text))
      else if body.Raised? then RequestFailed(body.message)
      else
        (match PyReplyContent(body.value, JStr(""))
         case Ok(c) => c
         case Raised(e) => RequestFailed(e))
    case TimedOut(_) => JStr(TimeoutReply)
    case Failed(e) => RequestFailed(e)
  }

  /** A completion document gives back exactly its reply, whatever other
      keys it carries; a decoded object without `choices` gives ""; an
      empty `choices` list is reported as the IndexError it raises. */
  lemma ReplyOfCompletion(text: string, content: Json, m: map<string, Json>, doc: Json, c: Completion)
    requires "choices" !in m
    ensures ReplyFor(Responded(200, text, Ok(CompletionShape(content)))) == content
    ensures ReplyFor(Responded(200, text, Ok(JObj(m)))) == JStr("")
    ensures HasMessage(doc) ==>
      ReplyFor(Responded(200, text, Ok(doc))) == (if "content" in MessageOf(doc) then MessageOf(doc)["content"] else JStr(""))
    ensures doc.JObj? && "choices" in doc.fields && doc.fields["choices"] == JArr([]) ==>
      ReplyFor(Responded(200, text, Ok(doc))) == RequestFailed("list index out of range")
    ensures |c.choices| > 0 ==> ReplyFor(Responded(200, text, Ok(CompletionJson(c)))) == JStr(c.choices[0].content)
  {
  }

  /** The API-error text names the status: two error replies that agree
      come from the same status and the same body text. */
  lemma {:induction false} ApiErrorIdentifiesResponse(s1: nat, t1: string, s2: nat, t2: string)
    requires ApiError(s1, t1) == ApiError(s2, t2)
    ensures s1 == s2 && t1 == t2
  {
    var p := "❌ API错误: ";
    var d1, d2 := NatToString(s1), NatToString(s2);
    var r1, r2 := ApiError(s1, t1), ApiError(s2, t2);
    assert r1 == p + (d1 + (" - " + t1));
    assert r2 == p + (d2 + (" - " + t2));
    var x1, x2 := d1 + (" - " + t1), d2 + (" - " + t2);
    assert x1 == r1[|p|..] == x2;
    DigitRunPrefix(d1, " - " + t1, d2, " - " + t2);
    NatToStringInjective(s1, s2);
    assert t1 == x1[|d1| + 3..];
  }

  /** Two digit strings each followed by a non-digit split their
      concatenations at the same place. */
  lemma DigitRunPrefix(d1: string, u1: string, d2: string, u2: string)
    requires forall i :: 0 <= i < |d1| ==> '0' <= d1[i] <= '9'
    requires forall i :: 0 <= i < |d2| ==> '0' <= d2[i] <= '9'
    requires u1 != [] && !('0' <= u1[0] <= '9') && u2 != [] && !('0' <= u2[0] <= '9')
    requires d1 + u1 == d2 + u2
    ensures d1 == d2
  {
    LeadingDigitsOf(d1, u1);
    LeadingDigitsOf(d2, u2);
    assert d1 == (d1 + u1)[..|d1|];
    assert d2 == (d2 + u2)[..|d2|];
  }

  /** The reply `chat_completion` gets for `message` after `history`. */
  function ChatReply(apiBase: string, message: string, model: string, history: seq<Turn>,
                     post: (string, Json) -> NetOutcome): Json {
    ReplyFor(post(ChatUrl(apiBase), RequestBody(model, RequestMessages(history, message))))
  }

  /** `ToolbazHFInterface.chat_completion`; `post` stands for
      `requests.post` to the service. */
  method ChatCompletion(apiBase: string, message: string, model: string, history: seq<Turn>,
                        post: (string, Json) -> NetOutcome) returns (reply: Json)
    ensures reply == ChatReply(apiBase, message, model, history, post)
  {
    var messages := BuildMessages(history, message);
    var outcome := post(ChatUrl(apiBase), RequestBody(model, messages));
    reply := ReplyFor(outcome);
  }

  /** The conversation shown by the Gradio chatbot, which `respond` updates
      in place. */
  class ChatSession {
    var history: seq<Turn>

    constructor()
      ensures history == []
    {
      history := [];
    }

    /** `respond`: a blank message leaves the history as it is; any other
        message appends one turn, asks the service with the history as it
        was before, and stores the answer in the new turn. The textbox is
        cleared either way. */
    method Respond(message: string, model: string, apiBase: string, post: (string, Json) -> NetOutcome)
      returns (textbox: string)
      modifies this
      ensures textbox == ""
      ensures IsBlank(message) ==> history == old(history)
      ensures !IsBlank(message) ==>
        history == old(history) + [Turn(message, ChatReply(apiBase, message, model, old(history), post))]
    {
      textbox := "";
      if IsBlank(message) {
        return;
      }
      history := history + [Turn(message, JNull)];
      var reply := ChatCompletion(apiBase, message, model, history[..|history| - 1], post);
      history := history[..|history| - 1] + [Turn(message, reply)];
    }
  }

  // ---------------------------------------------------------- model list

  /** The six ids `get_models` falls back to. */
  function FallbackModels(): (ids: seq<Json>)
    ensures |ids| == |ModelIds| && forall i :: 0 <= i < |ids| ==> ids[i] == JStr(ModelIds[i])
  {
    seq(|ModelIds|, i requires 0 <= i < |ModelIds| => JStr(ModelIds[i]))
  }

  /** `model.get("id", "unknown")` for an entry known to be a dict. */
  function IdOf(entry: Json): (id: Json)
    requires entry.JObj?
    ensures "id" in entry.fields ==> id == entry.fields["id"]
    ensures "id" !in entry.fields ==> id == JStr("unknown")
  {
    if "id" in entry.fields then entry.fields["id"] else JStr("unknown")
  }

  /** `[model.get("id", "unknown") for model in data.get("data", [])]`, or
      None when that raises: `data` is not a dict, its `data` is not
      iterable, or an iterated element is not a dict (iterating a string
      gives strings, iterating a dict gives its string keys). */
  function ListedIds(data: Json): (r: Option<seq<Json>>)
    ensures !data.JObj? ==> r.None?
    ensures data.JObj? && "data" !in data.fields ==> r == Some([])
    ensures data.JObj? && "data" in data.fields && data.fields["data"].JArr? ==>
      var xs := data.fields["data"].items;
      (r.Some? <==> forall i :: 0 <= i < |xs| ==> xs[i].JObj?) &&
      (r.Some? ==> |r.value| == |xs| && forall i :: 0 <= i < |xs| ==> r.value[i] == IdOf(xs[i]))
  {
    match PyGet(data, "data", JArr([]))
    case Raised(_) => None
    case Ok(JArr(xs)) =>
      if forall i :: 0 <= i < |xs| ==> xs[i].JObj? then Some(seq(|xs|, i requires 0 <= i < |xs| => IdOf(xs[i])))
      else None
    case Ok(JStr(s)) => if s == "" then Some([]) else None
    case Ok(JObj(m)) => if |m| == 0 then Some([]) else None
    case Ok(_) => None
  }

  /** `get_models`: the listed ids after a 200 whose body can be walked,
      the fixed six otherwise. */
  function GetModels(outcome: NetOutcome): (ids: seq<Json>)
    ensures !(outcome.Responded? && outcome.status == 200) ==> ids == FallbackModels()
    ensures outcome.Responded? && outcome.status == 200 && outcome.body.Ok? && ListedIds(outcome.body.value).Some? ==>
      ids == ListedIds(outcome.body.value).value
    ensures outcome.Responded? && outcome.body.Raised? ==> ids == FallbackModels()
    ensures outcome.Responded? && outcome.status == 200 && outcome.body.Ok? && ListedIds(outcome.body.value).None? ==>
      ids == FallbackModels()
  {
    if outcome.Responded? && outcome.status == 200 && outcome.body.Ok? then
      match ListedIds(outcome.body.value)
      case Some(ids) => ids
      case None => FallbackModels()
    else FallbackModels()
  }

  /** The ids read back from a model-list document are the cards' ids, in
      order. */
  lemma ListedIdsOfCards(cards: seq<Stable.ModelCard>)
    ensures ListedIds(Stable.ModelListJson(cards)) == Some(seq(|cards|, i requires 0 <= i < |cards| => JStr(cards[i].id)))
  {
    var data := Stable.ModelListJson(cards);
    var xs := data.fields["data"].items;
    assert PyGet(data, "data", JArr([])) == Ok(JArr(xs));
    assert forall i :: 0 <= i < |xs| ==> xs[i] == Stable.CardJson(cards[i]) && xs[i].JObj? && IdOf(xs[i]) == JStr(cards[i].id);
    assert seq(|xs|, i requires 0 <= i < |xs| => IdOf(xs[i]))
        == seq(|cards|, i requires 0 <= i < |cards| => JStr(cards[i].id));
  }

  /** Reading the stable service's model list gives the same six ids the
      front-end falls back to. */
  lemma GetModelsReadsStableList(clock: seq<nat>, text: string)
    requires |clock| == |ModelIds|
    ensures GetModels(Responded(200, text, Ok(Stable.ModelListJson(Stable.ListModels(clock))))) == FallbackModels()
  {
    var cards := Stable.ListModels(clock);
    ListedIdsOfCards(cards);
  }

  // -------------------------------------------------------------- health

  const Healthy: string := "✅ 服务正常运行"

  /** `health_check`: 200 is healthy; any other status is shown with its
      code; an exception is shown with its text. */
  function HealthCheck(outcome: NetOutcome): (status: string)
    ensures status == Healthy <==> outcome.Responded? && outcome.status == 200
    ensures outcome.Responded? && outcome.status != 200 ==> status == "⚠️ 服务异常: HTTP " + NatToString(outcome.status)
    ensures !outcome.Responded? ==> status == "❌ 服务不可用: " + outcome.message
  {
    match outcome
    case Responded(code, _, _) =>
      if code == 200 then Healthy else "⚠️ 服务异常: HTTP " + NatToString(code)
    case TimedOut(e) => "❌ 服务不可用: " + e
    case Failed(e) => "❌ 服务不可用: " + e
  }

  /** Different failing statuses are reported differently. */
  lemma HealthCheckNamesStatus(s1: nat, s2: nat, t1: string, t2: string, b1: Outcome<Json>, b2: Outcome<Json>)
    requires s1 != 200 && s2 != 200
    requires HealthCheck(Responded(s1, t1, b1)) == HealthCheck(Responded(s2, t2, b2))
    ensures s1 == s2
  {
    var p := "⚠️ 服务异常: HTTP ";
    assert NatToString(s1) == HealthCheck(Responded(s1, t1, b1))[|p|..];
    assert NatToString(s2) == HealthCheck(Responded(s2, t2, b2))[|p|..];
    NatToStringInjective(s1, s2);
  }
}

=== FILE: json.dfy ===
/** JSON values as the front-ends see them after decoding, with the
    fragments of Python and JavaScript semantics the front-ends apply to
    them: truthiness, `dict.get`, `x[0]` and the exceptions these raise in
    Python; property access, truthiness and string conversion in
    JavaScript. Numbers are integers. */
module Json {
  import opened Wrappers
  import opened Text

  datatype Json =
    | JNull
    | JBool(b: bool)
    | JNum(n: int)
    | JStr(s: string)
    | JArr(items: seq<Json>)
    | JObj(fields: map<string, Json>)

  // ---------------------------------------------------------------- Python

  /** `bool(v)` for the Python value that `json.loads` builds from `v`. */
  predicate PyTruthy(v: Json) {
    match v
    case JNull => false
    case JBool(b) => b
    case JNum(n) => n != 0
    case JStr(s) => s != ""
    case JArr(xs) => |xs| > 0
    case JObj(m) => |m| > 0
  }

  /** `type(v).__name__` */
  function PyTypeName(v: Json): string {
    match v
    case JNull => "NoneType"
    case JBool(_) => "bool"
    case JNum(_) => "int"
    case JStr(_) => "str"
    case JArr(_) => "list"
    case JObj(_) => "dict"
  }

  /** The text of the AttributeError raised by `v.<attr>`. */
  function NoAttribute(v: Json, attr: string): string {
    "'" + PyTypeName(v) + "' object has no attribute '" + attr + "'"
  }

  /** `v.get(key, default)`; only a dict has `get`. */
  function PyGet(v: Json, key: string, default: Json): (r: Outcome<Json>)
    ensures r.Ok? <==> v.JObj?
  {
    match v
    case JObj(m) => Ok(if key in m then m[key] else default)
    case _ => Raised(NoAttribute(v, "get"))
  }

  /** `v[0]` */
  function PyFirst(v: Json): Outcome<Json> {
    match v
    case JArr(xs) => if |xs| == 0 then Raised("list index out of range") else Ok(xs[0])
    case JStr(s) => if |s| == 0 then Raised("string index out of range") else Ok(JStr([s[0]]))
    case JObj(_) => Raised("0")  // KeyError(0): decoded JSON keys are strings
    case _ => Raised("'" + PyTypeName(v) + "' object is not subscriptable")
  }

  /** `data.get("choices", [{}])[0].get("message", {}).get("content", default)`,
      the reply-extraction chain of the Gradio front-ends. */
  function PyReplyContent(data: Json, default: Json): (r: Outcome<Json>)
    ensures !data.JObj? ==> r.Raised?
    ensures data.JObj? && "choices" !in data.fields ==> r == Ok(default)
    ensures HasMessage(data) ==>
      r == Ok(if "content" in MessageOf(data) then MessageOf(data)["content"] else default)
    ensures FirstChoiceOf(data).Some? && FirstChoiceOf(data).value.JObj? && "message" !in FirstChoiceOf(data).value.fields ==>
      r == Ok(default)
    ensures data.JObj? && "choices" in data.fields && data.fields["choices"] == JArr([]) ==>
      r == Raised("list index out of range")
    ensures forall c :: data == CompletionShape(c) ==> r == Ok(c)
  {
    var choices :- PyGet(data, "choices", JArr([JObj(map[])]));
    var first :- PyFirst(choices);
    var message :- PyGet(first, "message", JObj(map[]));
    PyGet(message, "content", default)
  }

  /** The first element of a document's `choices` list, when the document
      is an object whose `choices` is a non-empty list. */
  function FirstChoiceOf(data: Json): Option<Json> {
    if data.JObj? && "choices" in data.fields && data.fields["choices"].JArr? && |data.fields["choices"].items| > 0
    then Some(data.fields["choices"].items[0])
    else None
  }

  /** The document holds an object at `choices[0].message`, whatever else
      it holds. */
  predicate HasMessage(data: Json) {
    var first := FirstChoiceOf(data);
    first.Some? && first.value.JObj? && "message" in first.value.fields && first.value.fields["message"].JObj?
  }

  /** The fields of the object at `choices[0].message`. */
  function MessageOf(data: Json): map<string, Json>
    requires HasMessage(data)
  {
    FirstChoiceOf(data).value.fields["message"].fields
  }

  /** The smallest JSON document that carries `content` where an
      OpenAI-style completion carries its reply. */
  function CompletionShape(content: Json): Json {
    JObj(map["choices" := JArr([JObj(map["message" := JObj(map["content" := content])])])])
  }

  // ------------------------------------------------------------ JavaScript

  /** A JavaScript value read out of a parsed JSON document. */
  datatype JsValue = Undefined | Defined(json: Json)

  /** `v.name` for a property name that none of Object, Array and String
      inherits: only an object can have it; reading it from undefined or
      null throws a TypeError. */
  function JsProp(v: JsValue, name: string): (r: Outcome<JsValue>)
    ensures r.Raised? <==> v == Undefined || v == Defined(JNull)
  {
    match v
    case Undefined => Raised("TypeError")
    case Defined(JNull) => Raised("TypeError")
    case Defined(JObj(m)) => Ok(if name in m then Defined(m[name]) else Undefined)
    case Defined(_) => Ok(Undefined)
  }

  /** `v[0]` */
  function JsIndex0(v: JsValue): (r: Outcome<JsValue>)
    ensures r.Raised? <==> v == Undefined || v == Defined(JNull)
  {
    match v
    case Undefined => Raised("TypeError")
    case Defined(JNull) => Raised("TypeError")
    case Defined(JArr(xs)) => Ok(if |xs| == 0 then Undefined else Defined(xs[0]))
    case Defined(JStr(s)) => Ok(if |s| == 0 then Undefined else Defined(JStr([s[0]])))
    case Defined(JObj(m)) => Ok(if "0" in m then Defined(m["0"]) else Undefined)
    case Defined(_) => Ok(Undefined)
  }

  /** `if (v)` */
  predicate JsTruthy(v: JsValue) {
    match v
    case Undefined => false
    case Defined(JNull) => false
    case Defined(JBool(b)) => b
    case Defined(JNum(n)) => n != 0
    case Defined(JStr(s)) => s != ""
    case Defined(_) => true
  }

  /** `String(n)` for an integer. */
  function JsIntToString(n: int): string {
    if n < 0 then "-" + NatToString(-n) else NatToString(n)
  }

  /** `String(v)`, as `s += v` applies it: arrays join their elements with
      commas (null elements give ""), objects give "[object Object]". */
  function JsToString(v: Json): (r: string)
    ensures v.JStr? ==> r == v.s
  {
    match v
    case JNull => "null"
    case JBool(b) => if b then "true" else "false"
    case JNum(n) => JsIntToString(n)
    case JStr(s) => s
    case JObj(_) => "[object Object]"
    case JArr(xs) =>
      JoinCommas(seq(|xs|, i requires 0 <= i < |xs| => if xs[i].JNull? then "" else JsToString(xs[i])))
  }

  function JoinCommas(parts: seq<string>): string {
    if |parts| == 0 then ""
    else if |parts| == 1 then parts[0]
    else parts[0] + "," + JoinCommas(parts[1..])
  }
}

=== FILE: lite.dfy ===
/** The lite Gradio front-end (app_hf_lite.py): a connectivity probe that
    sets a global status line, per-model canned replies, and a chat handler
    that prefers the local service's answer to the canned one whenever the
    service answers with status 200. */
module Lite {
  import opened Wrappers
  import opened Text
  import opened Json
  import opened OpenAi
  import Gradio

  // -------------------------------------------------------------- status

  const CheckingStatus: string := "❓ 检查中..."
  const ReachableStatus: string := "🟢 网络连接正常"
  const UnhealthyStatus: string := "🟡 网络连接异常"
  const UnreachablePrefix: string := "🔴 网络不可用: "

  /** The status line for the outcome of the probe request: status 200,
      any other status, or an exception whose text is cut to 50
      characters. */
  function StatusFor(probe: NetOutcome): (s: string)
    ensures s == ReachableStatus <==> probe.Responded? && probe.status == 200
    ensures s == UnhealthyStatus <==> probe.Responded? && probe.status != 200
    ensures !probe.Responded? ==> s == UnreachablePrefix + Prefix(probe.message, 50)
    ensures |s| <= |UnreachablePrefix| + 50
  {
    match probe
    case Responded(code, _, _) => if code == 200 then ReachableStatus else UnhealthyStatus
    case TimedOut(e) => UnreachablePrefix + Prefix(e, 50)
    case Failed(e) => UnreachablePrefix + Prefix(e, 50)
  }

  /** Every probe leaves a status other than the initial one, and an error
      report keeps the head of the error text. */
  lemma ProbeReplacesCheckingStatus(probe: NetOutcome)
    ensures StatusFor(probe) != CheckingStatus
    ensures !probe.Responded? ==> Prefix(probe.message, 50) <= StatusFor(probe)[|UnreachablePrefix|..]
  {
    if !probe.Responded? {
      assert StatusFor(probe)[0] == UnreachablePrefix[0];
      assert StatusFor(probe)[|UnreachablePrefix|..] == Prefix(probe.message, 50);
    }
  }

  /** The module-level `SERVICE_STATUS` and the probe that rewrites it. */
  class ServiceMonitor {
    var status: string

    constructor()
      ensures status == CheckingStatus
    {
      status := CheckingStatus;
    }

    /** `check_service_status`; `probe` is the outcome of its GET. */
    method CheckServiceStatus(probe: NetOutcome) returns (shown: string)
      modifies this
      ensures status == StatusFor(probe) && shown == status
    {
      match probe {
        case Responded(code, _, _) =>
          if code == 200 {
            status := ReachableStatus;
          } else {
            status := UnhealthyStatus;
          }
        case TimedOut(e) =>
          status := UnreachablePrefix + Prefix(e, 50);
        case Failed(e) =>
          status := UnreachablePrefix + Prefix(e, 50);
      }
      shown := status;
    }
  }

  // -------------------------------------------------------- canned replies

  const ToolbazMock: Template :=
    Template("[模拟响应] toolbaz-v4.5-fast 对 ",
      " 的回复：这是一个模拟的AI响应，因为HuggingFace Spaces可能无法访问外部Toolbaz API。在实际部署中，这里会是真实的AI回复。")
  const GeminiMock: Template :=
    Template("[模拟响应] Gemini 对 ", " 的回复：作为Google的AI模型，我会提供高质量的回答。但这是在HF Spaces上的模拟响应。")
  const GptMock: Template :=
    Template("[模拟响应] GPT-5 对 ", " 的回复：我是先进的AI助手。注意这是模拟响应，真实功能需要在自有服务器上部署。")

  const UnknownModelReply: string := "未知模型的模拟响应"

  /** The three models with a canned reply of their own. */
  predicate HasMock(model: string) {
    model == "toolbaz-v4.5-fast" || model == "gemini-2.5-flash" || model == "gpt-5"
  }

  function MockTemplate(model: string): Template
    requires HasMock(model)
  {
    if model == "toolbaz-v4.5-fast" then ToolbazMock
    else if model == "gemini-2.5-flash" then GeminiMock
    else GptMock
  }

  /** `simulate_api_response`: the canned reply quoting the message for
      the three models that have one, a fixed text for any other. */
  function SimulateApiResponse(message: string, model: string): (r: string)
    ensures HasMock(model) ==> r == MockTemplate(model).Fill(message)
    ensures !HasMock(model) ==> r == UnknownModelReply
  {
    if HasMock(model) then MockTemplate(model).Fill(message) else UnknownModelReply
  }

  lemma CannedReplyLonger(message: string, model: string)
    requires HasMock(model)
    ensures |SimulateApiResponse(message, model)| > |UnknownModelReply|
  {
  }

  /** The ninth character of each canned reply names its model. */
  lemma CannedReplyMark(message: string, model: string)
    requires HasMock(model)
    ensures SimulateApiResponse(message, model)[8] == (if model == "toolbaz-v4.5-fast" then 'o' else if model == "gemini-2.5-flash" then 'e' else 'P')
  {
  }

  /** A canned reply tells which of the three models gave it and quotes the
      message exactly; the fixed text is never a canned reply. */
  lemma SimulatedReplyIdentifies(m1: string, a: string, m2: string, b: string)
    requires SimulateApiResponse(a, m1) == SimulateApiResponse(b, m2)
    ensures HasMock(m1) <==> HasMock(m2)
    ensures HasMock(m1) ==> m1 == m2 && a == b
  {
    if HasMock(m1) {
      CannedReplyLonger(a, m1);
    }
    if HasMock(m2) {
      CannedReplyLonger(b, m2);
    }
    if HasMock(m1) && HasMock(m2) {
      CannedReplyMark(a, m1);
      CannedReplyMark(b, m2);
      FillRecoversText(MockTemplate(m1), a, b);
    }
  }

  // ---------------------------------------------------------------- chat

  const LocalChatUrl: string := "http://localhost:8000/v1/chat/completions"

  /** The body `chat_fn` posts: the model and the message alone, no
      history and no `stream` key. */
  function LiteRequestBody(model: string, message: string): (j: Json)
    ensures j.JObj? && j.fields.Keys == {"model", "messages"} && j.fields["model"] == JStr(model)
    ensures j.fields["messages"] == JArr([JObj(map["role" := JStr("user"), "content" := JStr(message)])])
  {
    ChatBody(model, JArr([JObj(map["role" := JStr("user"), "content" := JStr(message)])]), None)
  }

  /** The reply `chat_fn` stores: the canned reply, replaced by
      `choices[0].message.content` (defaulting to the canned reply) when
      the local service answers 200 with a body that can be walked; every
      failure of the real call keeps the canned reply. */
  function LiteReply(message: string, model: string, outcome: NetOutcome): (reply: Json)
    ensures !(outcome.Responded? && outcome.status == 200 && outcome.body.Ok?) ==>
      reply == JStr(SimulateApiResponse(message, model))
    ensures reply == JStr(SimulateApiResponse(message, model)) || (outcome.Responded? && outcome.status == 200)
    ensures outcome.Responded? && outcome.status == 200 && outcome.body.Ok? && HasMessage(outcome.body.value) ==>
      var m := MessageOf(outcome.body.value);
      reply == (if "content" in m then m["content"] else JStr(SimulateApiResponse(message, model)))
    ensures outcome.Responded? && outcome.status == 200 && outcome.body.Ok? && PyReplyContent(outcome.body.value, JStr("")).Raised? ==>
      reply == JStr(SimulateApiResponse(message, model))
  {
    var mock := JStr(SimulateApiResponse(message, model));
    if outcome.Responded? && outcome.status == 200 && outcome.body.Ok? then
      match PyReplyContent(outcome.body.value, mock)
      case Ok(c) => c
      case Raised(_) => mock
    else mock
  }

  /** A completion document's reply wins over the canned one; a 200 body
      without `choices`, or one that is not an object, leaves the canned
      reply. */
  lemma LiteReplyPrefersService(message: string, model: string, text: string, content: Json, data: Json)
    requires !data.JObj? || "choices" !in data.fields
    ensures LiteReply(message, model, Responded(200, text, Ok(CompletionShape(content)))) == content
    ensures LiteReply(message, model, Responded(200, text, Ok(data))) == JStr(SimulateApiResponse(message, model))
  {
  }

  /** A full completion document, with all its other keys, gives its first
      choice's reply; one whose `choices` is empty raises the IndexError,
      and the canned reply stays. */
  lemma LiteReplyReadsCompletion(message: string, model: string, text: string, c: Completion)
    ensures |c.choices| > 0 ==> LiteReply(message, model, Responded(200, text, Ok(CompletionJson(c)))) == JStr(c.choices[0].content)
    ensures c.choices == [] ==> LiteReply(message, model, Responded(200, text, Ok(CompletionJson(c)))) == JStr(SimulateApiResponse(message, model))
  {
  }

  /** The chatbot history of the lite page, which `chat_fn` updates in
      place. */
  class LiteChat {
    var history: seq<Gradio.Turn>

    constructor()
      ensures history == []
    {
      history := [];
    }

    /** `chat_fn`: a blank message leaves the history as it is; any other
        message appends one turn whose reply is set once the local service
        has been tried. `post` stands for `requests.post`. */
    method ChatFn(message: string, model: string, post: (string, Json) -> NetOutcome) returns (textbox: string)
      modifies this
      ensures textbox == ""
      ensures IsBlank(message) ==> history == old(history)
      ensures !IsBlank(message) ==>
        history == old(history) + [Gradio.Turn(message, LiteReply(message, model, post(LocalChatUrl, LiteRequestBody(model, message))))]
    {
      textbox := "";
      if IsBlank(message) {
        return;
      }
      history := history + [Gradio.Turn(message, JNull)];
      var response := JStr(SimulateApiResponse(message, model));
      var outcome := post(LocalChatUrl, LiteRequestBody(model, message));
      if outcome.Responded? && outcome.status == 200 && outcome.body.Ok? {
        var walked := PyReplyContent(outcome.body.value, response);
        if walked.Ok? {
          response := walked.value;
        }
      }
      history := history[..|history| - 1] + [Gradio.Turn(message, response)];
    }

    /** The clear button: the chatbot is set to `None`, an empty history. */
    method Clear()
      modifies this
      ensures history == []
    {
      history := [];
    }
  }
}

=== FILE: openai.dfy ===
/** Shapes shared by the OpenAI-compatible front-ends: the model catalogue,
    reply templates, word-count usage estimates, the completion document,
    the request messages they accept, the replies of the HTTP services they
    call and the HTTP replies they produce. */
module OpenAi {
  import opened Wrappers
  import opened Text
  import opened Json

  // ------------------------------------------------------------ catalogue

  /** The six model ids every front-end offers, in the order it lists them. */
  const ModelIds: seq<string> :=
    ["toolbaz-v4.5-fast", "gemini-2.5-flash", "gemini-2.5-pro", "claude-sonnet-4", "gpt-5", "grok-4-fast"]

  /** The model a request without a `model` field asks for. */
  const DefaultModel: string := "toolbaz-v4.5-fast"

  predicate IsKnownModel(model: string) {
    model in ModelIds
  }

  // ------------------------------------------------------------ templates

  /** An f-string whose single placeholder, the user's text, stands
      between two apostrophes: `f"{lead}'{text}'{trail}"`. */
  datatype Template = Template(lead: string, trail: string) {
    function Fill(text: string): (r: string)
      ensures |r| == |lead| + |text| + |trail| + 2
      ensures r[..|lead|] == lead && r[|lead|] == '\'' && r[|lead| + 1..|lead| + 1 + |text|] == text
      ensures r[|lead| + 1 + |text|] == '\'' && r[|r| - |trail|..] == trail
    {
      lead + "'" + text + "'" + trail
    }
  }

  /** The user's text is recoverable from a filled template: two different
      texts never give the same reply. */
  lemma FillRecoversText(t: Template, a: string, b: string)
    requires t.Fill(a) == t.Fill(b)
    ensures a == b
  {
  }

  // ---------------------------------------------------------------- usage

  /** Token figures: twice the word count of the prompt and of the reply. */
  datatype Usage = Usage(promptTokens: nat, completionTokens: nat, totalTokens: nat)

  function EstimateUsage(prompt: string, completion: string): (u: Usage)
    ensures u.promptTokens == 2 * |Words(prompt)| && u.completionTokens == 2 * |Words(completion)|
    ensures u.totalTokens == u.promptTokens + u.completionTokens
    ensures u.promptTokens % 2 == 0 && u.completionTokens % 2 == 0 && u.totalTokens % 2 == 0
  {
    var p := |Words(prompt)| * 2;
    var c := |Words(completion)| * 2;
    Usage(p, c, p + c)
  }

  /** A reply that starts with a visible character has at least one word, so
      its usage total is positive. */
  lemma UsagePositive(prompt: string, completion: string)
    requires completion != [] && !IsSpace(completion[0])
    ensures EstimateUsage(prompt, completion).totalTokens >= 2
  {
    BlankIffNoWords(completion);
    assert !IsBlank(completion);
  }

  // ----------------------------------------------------------- completion

  datatype Choice = Choice(index: nat, role: string, content: string, finishReason: string)

  datatype Completion = Completion(
    id: string, objectKind: string, created: nat, model: string,
    choices: seq<Choice>, usage: Usage)

  /** `f"chatcmpl-{int(time.time())}"` */
  function CompletionId(clock: nat): string {
    "chatcmpl-" + NatToString(clock)
  }

  /** The non-streaming completion document; `idClock` and `createdClock`
      are the two readings of the clock the source takes. */
  function BuildCompletion(model: string, prompt: string, content: string, idClock: nat, createdClock: nat): (c: Completion)
    ensures |c.choices| == 1 && c.choices[0] == Choice(0, "assistant", content, "stop")
    ensures c.model == model && c.objectKind == "chat.completion"
    ensures c.id == CompletionId(idClock) && c.created == createdClock
    ensures c.usage == EstimateUsage(prompt, content)
  {
    Completion(CompletionId(idClock), "chat.completion", createdClock, model,
               [Choice(0, "assistant", content, "stop")], EstimateUsage(prompt, content))
  }

  /** One choice as `JSONResponse` serialises it. */
  function ChoiceJson(ch: Choice): Json {
    JObj(map[
      "index" := JNum(ch.index),
      "message" := JObj(map["role" := JStr(ch.role), "content" := JStr(ch.content)]),
      "finish_reason" := JStr(ch.finishReason)])
  }

  /** The completion document as `JSONResponse` serialises it: whatever
      walks `choices[0].message.content` finds the first choice's reply
      there, next to the other five top-level keys. */
  function CompletionJson(c: Completion): (j: Json)
    ensures j.JObj? && j.fields.Keys == {"id", "object", "created", "model", "choices", "usage"}
    ensures j.fields["id"] == JStr(c.id) && j.fields["model"] == JStr(c.model)
    ensures |c.choices| > 0 ==> HasMessage(j) && "content" in MessageOf(j) && MessageOf(j)["content"] == JStr(c.choices[0].content)
    ensures c.choices == [] ==> j.fields["choices"] == JArr([])
  {
    var choices := JArr(seq(|c.choices|, i requires 0 <= i < |c.choices| => ChoiceJson(c.choices[i])));
    JObj(map[
      "id" := JStr(c.id),
      "object" := JStr(c.objectKind),
      "created" := JNum(c.created),
      "model" := JStr(c.model),
      "choices" := choices,
      "usage" := JObj(map[
        "prompt_tokens" := JNum(c.usage.promptTokens),
        "completion_tokens" := JNum(c.usage.completionTokens),
        "total_tokens" := JNum(c.usage.totalTokens)])])
  }

  // ------------------------------------------------------------- requests

  /** One element of a request's `messages`; a field missing from the JSON
      object is `None`. */
  datatype RequestMessage = RequestMessage(role: Option<Json>, content: Option<Json>)

  /** The fields a chat request body may carry; a missing field is `None`. */
  datatype ChatRequest = ChatRequest(model: Option<string>, messages: Option<seq<RequestMessage>>, stream: Option<Json>)

  function MessageJson(m: RequestMessage): Json {
    var withRole := if m.role.Some? then map["role" := m.role.value] else map[];
    JObj(if m.content.Some? then withRole["content" := m.content.value] else withRole)
  }

  function MessagesJson(ms: seq<RequestMessage>): Json {
    JArr(seq(|ms|, i requires 0 <= i < |ms| => MessageJson(ms[i])))
  }

  /** The body the front-ends POST to a chat-completions service. */
  function ChatBody(model: string, messages: Json, stream: Option<bool>): Json {
    var base := map["model" := JStr(model), "messages" := messages];
    JObj(if stream.Some? then base["stream" := JBool(stream.value)] else base)
  }

  // -------------------------------------------------------------- network

  /** What an outgoing `requests` call ends in: a response (status, body text
      and the outcome of `response.json()`), a `requests.exceptions.Timeout`,
      or any other exception; the strings are `str(e)`. */
  datatype NetOutcome =
    | Responded(status: nat, text: string, body: Outcome<Json>)
    | TimedOut(message: string)
    | Failed(message: string)

  // -------------------------------------------------------------- replies

  datatype Body = CompletionBody(completion: Completion) | JsonBody(json: Json)

  datatype HttpReply = HttpReply(status: nat, body: Body)

  /** `{"error": message}` */
  function ErrorJson(message: Json): Json {
    JObj(map["error" := message])
  }
}

=== FILE: roundtrip.dfy ===
/** The stable service's event stream read by the enhanced page's script:
    the frames `generate_stream` writes (app_hf_stable.py), read by the loop
    of `sendMessage` (main.py), give back the reply's words joined by single
    spaces. The frame format is the `data: ` line of the event-stream
    format (WHATWG HTML Living Standard, section 9.2), ended by a blank
    line. */
module StreamRoundTrip {
  import opened Wrappers
  import opened Text
  import opened Json
  import OpenAi
  import Stable
  import Enhanced

  /** `json.dumps` and `JSON.parse` as a pair: parsing what was dumped gives
      the value back, and a dumped value is one line (newlines inside
      strings are escaped) that is not the `[DONE]` marker. */
  ghost predicate Codec(dumps: Json -> string, parse: string -> Option<Json>) {
    forall j :: parse(dumps(j)) == Some(j) && '\n' !in dumps(j) && dumps(j) != "[DONE]"
  }

  /** The dictionary `generate_stream` dumps for a delta. */
  function DeltaJson(d: Stable.Delta): Json {
    JObj(if d.role.Some? then map["role" := JStr(d.role.value), "content" := JStr(d.content)]
         else map["content" := JStr(d.content)])
  }

  /** The dictionary `generate_stream` dumps for a chunk frame. */
  function FrameJson(id: string, created: nat, model: string, d: Stable.Delta): Json {
    JObj(map["id" := JStr(id), "object" := JStr("chat.completion.chunk"), "created" := JNum(created),
             "model" := JStr(model),
             "choices" := JArr([JObj(map["index" := JNum(0), "delta" := DeltaJson(d)])])])
  }

  /** The text `generate_stream` yields for a frame. */
  function FrameText(f: Stable.Frame, dumps: Json -> string): string {
    match f
    case Chunk(id, created, model, d) => "data: " + dumps(FrameJson(id, created, model, d)) + "\n\n"
    case Done => "data: [DONE]\n\n"
  }

  /** The yielded texts, one per frame. */
  function FrameTexts(fs: seq<Stable.Frame>, dumps: Json -> string): (ts: seq<string>)
    ensures |ts| == |fs|
  {
    seq(|fs|, i requires 0 <= i < |fs| => FrameText(fs[i], dumps))
  }

  /** The reader's script finds the delta content of a dumped chunk frame. */
  lemma PayloadOfFrame(id: string, created: nat, model: string, d: Stable.Delta,
                       dumps: Json -> string, parse: string -> Option<Json>)
    requires Codec(dumps, parse)
    ensures Enhanced.PayloadText(dumps(FrameJson(id, created, model, d)), parse) == d.content
  {
    var j := FrameJson(id, created, model, d);
    assert parse(dumps(j)) == Some(j);
    assert Enhanced.DeltaContent(Defined(j)) == Ok(Defined(JStr(d.content)));
  }

  /** A line ended by a blank line splits off as that line and an empty
      piece. */
  lemma SplitFrameLine(line: string, rest: string)
    requires '\n' !in line
    ensures SplitLines(line + "\n\n" + rest) == [line, ""] + SplitLines(rest)
  {
    assert line + "\n\n" + rest == line + "\n" + ("" + "\n" + rest);
    Text.SplitLinesCons(line, "" + "\n" + rest);
    Text.SplitLinesCons("", rest);
  }

  /** A `data: ` line that is not `[DONE]`, then an empty line: the payload
      is read and the reader goes on. */
  lemma ReadDataLine(line: string, lines: seq<string>, parse: string -> Option<Json>)
    requires "data: " <= line && line[6..] != "[DONE]"
    ensures Enhanced.ReadLines([line, ""] + lines, parse) == Enhanced.PayloadText(line[6..], parse) + Enhanced.ReadLines(lines, parse)
  {
    var ls := [line, ""] + lines;
    assert ls[0] == line && ls[1..] == [""] + lines;
    assert ([""] + lines)[0] == "" && ([""] + lines)[1..] == lines;
  }

  /** A chunk frame followed, in the same read, by more text: the frame
      adds its delta content and the reader goes on with the rest. */
  lemma ReadFrameThen(f: Stable.Frame, rest: string, dumps: Json -> string, parse: string -> Option<Json>)
    requires Codec(dumps, parse)
    requires f.Chunk?
    ensures Enhanced.ReadChunk(FrameText(f, dumps) + rest, parse) == f.delta.content + Enhanced.ReadChunk(rest, parse)
  {
    var payload := dumps(FrameJson(f.id, f.created, f.model, f.delta));
    var line := "data: " + payload;
    assert '\n' !in payload && payload != "[DONE]";
    assert '\n' !in line by {
      assert forall i :: 6 <= i < |line| ==> line[i] == payload[i - 6];
    }
    assert FrameText(f, dumps) + rest == line + "\n\n" + rest;
    SplitFrameLine(line, rest);
    assert "data: " <= line && line[6..] == payload;
    ReadDataLine(line, SplitLines(rest), parse);
    PayloadOfFrame(f.id, f.created, f.model, f.delta, dumps, parse);
  }

  /** The `[DONE]` frame ends the read it arrives in. */
  lemma ReadDoneThen(rest: string, dumps: Json -> string, parse: string -> Option<Json>)
    ensures Enhanced.ReadChunk(FrameText(Stable.Done, dumps) + rest, parse) == ""
  {
    assert FrameText(Stable.Done, dumps) + rest == "data: [DONE]\n" + ("\n" + rest);
    Enhanced.DoneChunkAddsNothing("\n" + rest, parse);
  }

  /** A frame read as a chunk of its own adds exactly its delta content. */
  lemma ReadFrame(f: Stable.Frame, dumps: Json -> string, parse: string -> Option<Json>)
    requires Codec(dumps, parse)
    ensures Enhanced.ReadChunk(FrameText(f, dumps), parse) == (if f.Chunk? then f.delta.content else "")
  {
    assert FrameText(f, dumps) + "" == FrameText(f, dumps);
    if f.Chunk? {
      ReadFrameThen(f, "", dumps, parse);
    } else {
      ReadDoneThen("", dumps, parse);
    }
  }

  lemma FrameTextsSnoc(fs: seq<Stable.Frame>, f: Stable.Frame, dumps: Json -> string)
    ensures FrameTexts(fs + [f], dumps) == FrameTexts(fs, dumps) + [FrameText(f, dumps)]
  {
  }

  /** Frames read one chunk each accumulate the frames' delta contents. */
  lemma {:induction false} ReadFrames(fs: seq<Stable.Frame>, dumps: Json -> string, parse: string -> Option<Json>)
    requires Codec(dumps, parse)
    ensures Enhanced.ReadStream(FrameTexts(fs, dumps), parse) == Stable.DeltaText(fs)
    decreases |fs|
  {
    if fs != [] {
      var init, last := fs[..|fs| - 1], fs[|fs| - 1];
      assert fs == init + [last];
      ReadFrames(init, dumps, parse);
      FrameTextsSnoc(init, last, dumps);
      Enhanced.ReadStreamSnoc(FrameTexts(init, dumps), FrameText(last, dumps), parse);
      ReadFrame(last, dumps, parse);
      Stable.DeltaTextAppend(init, [last]);
      assert Stable.DeltaText([last]) == (if last.Chunk? then last.delta.content else "");
    }
  }

  /** The frames a server sends, grouped into the reads that deliver them,
      in order. */
  function Flatten(groups: seq<seq<Stable.Frame>>): seq<Stable.Frame> {
    if groups == [] then [] else Flatten(groups[..|groups| - 1]) + groups[|groups| - 1]
  }

  /** The text of each read: the frames it delivers, back to back. */
  function GroupTexts(groups: seq<seq<Stable.Frame>>, dumps: Json -> string): (ts: seq<string>)
    ensures |ts| == |groups|
  {
    seq(|groups|, i requires 0 <= i < |groups| => Enhanced.Concat(FrameTexts(groups[i], dumps)))
  }

  lemma ConcatCons(x: string, xs: seq<string>)
    ensures Enhanced.Concat([x] + xs) == x + Enhanced.Concat(xs)
  {
    Enhanced.ConcatAppend([x], xs);
    Enhanced.ConcatSingle(x);
  }

  /** `[DONE]`, if anywhere, is the last frame. */
  predicate DoneAtMostLast(fs: seq<Stable.Frame>) {
    forall i :: 0 <= i < |fs| - 1 ==> fs[i].Chunk?
  }

  /** One read delivering several whole frames, `[DONE]` at most last,
      adds their delta contents. */
  lemma {:induction false} ReadGroup(g: seq<Stable.Frame>, dumps: Json -> string, parse: string -> Option<Json>)
    requires Codec(dumps, parse)
    requires DoneAtMostLast(g)
    ensures Enhanced.ReadChunk(Enhanced.Concat(FrameTexts(g, dumps)), parse) == Stable.DeltaText(g)
    decreases |g|
  {
    if g == [] {
      assert FrameTexts(g, dumps) == [];
    } else {
      var f, rest := g[0], g[1..];
      assert FrameTexts(g, dumps) == [FrameText(f, dumps)] + FrameTexts(rest, dumps);
      ConcatCons(FrameText(f, dumps), FrameTexts(rest, dumps));
      if f.Chunk? {
        ReadGroup(rest, dumps, parse);
        ReadFrameThen(f, Enhanced.Concat(FrameTexts(rest, dumps)), dumps, parse);
      } else {
        assert |g| == 1;
        ReadDoneThen(Enhanced.Concat(FrameTexts(rest, dumps)), dumps, parse);
        assert rest == [];
      }
    }
  }

  /** Only the last frame of a concatenation may be `[DONE]`: then the
      same holds for each part. */
  lemma ChunksBeforeLast(fs: seq<Stable.Frame>, g: seq<Stable.Frame>)
    requires DoneAtMostLast(fs + g)
    ensures DoneAtMostLast(fs) && DoneAtMostLast(g)
  {
    forall i | 0 <= i < |fs| - 1
      ensures fs[i].Chunk?
    {
      assert (fs + g)[i] == fs[i];
    }
    forall i | 0 <= i < |g| - 1
      ensures g[i].Chunk?
    {
      assert (fs + g)[|fs| + i] == g[i];
    }
  }

  lemma GroupTextsSnoc(groups: seq<seq<Stable.Frame>>, dumps: Json -> string)
    requires groups != []
    ensures GroupTexts(groups, dumps)
         == GroupTexts(groups[..|groups| - 1], dumps) + [Enhanced.Concat(FrameTexts(groups[|groups| - 1], dumps))]
  {
  }

  /** However whole frames are grouped into reads, with `[DONE]` at most
      last, the reader accumulates their delta contents. */
  lemma {:induction false} ReadGroups(groups: seq<seq<Stable.Frame>>, dumps: Json -> string, parse: string -> Option<Json>)
    requires Codec(dumps, parse)
    requires DoneAtMostLast(Flatten(groups))
    ensures Enhanced.ReadStream(GroupTexts(groups, dumps), parse) == Stable.DeltaText(Flatten(groups))
    decreases |groups|
  {
    if groups != [] {
      var init, g := groups[..|groups| - 1], groups[|groups| - 1];
      var fs := Flatten(init);
      assert Flatten(groups) == fs + g;
      ChunksBeforeLast(fs, g);
      ReadGroups(init, dumps, parse);
      ReadGroup(g, dumps, parse);
      ReadOneMoreGroup(groups, dumps, parse);
    }
  }

  /** The step of `ReadGroups`: one more read adds what that read shows. */
  lemma ReadOneMoreGroup(groups: seq<seq<Stable.Frame>>, dumps: Json -> string, parse: string -> Option<Json>)
    requires groups != []
    requires Enhanced.ReadStream(GroupTexts(groups[..|groups| - 1], dumps), parse) == Stable.DeltaText(Flatten(groups[..|groups| - 1]))
    requires Enhanced.ReadChunk(Enhanced.Concat(FrameTexts(groups[|groups| - 1], dumps)), parse) == Stable.DeltaText(groups[|groups| - 1])
    ensures Enhanced.ReadStream(GroupTexts(groups, dumps), parse) == Stable.DeltaText(Flatten(groups))
  {
    var init, g := groups[..|groups| - 1], groups[|groups| - 1];
    var shown := Enhanced.Concat(FrameTexts(g, dumps));
    calc {
      Enhanced.ReadStream(GroupTexts(groups, dumps), parse);
    == { GroupTextsSnoc(groups, dumps); }
      Enhanced.ReadStream(GroupTexts(init, dumps) + [shown], parse);
    == { Enhanced.ReadStreamSnoc(GroupTexts(init, dumps), shown, parse); }
      Enhanced.ReadStream(GroupTexts(init, dumps), parse) + Enhanced.ReadChunk(shown, parse);
    == { Stable.DeltaTextAppend(Flatten(init), g); }
      Stable.DeltaText(Flatten(init) + g);
    }
  }

  /** The round trip: the page shows the reply's words joined by single
      spaces, so it splits into the same words as the reply. */
  lemma StreamRoundTrip(id: string, created: nat, model: string, content: string,
                        dumps: Json -> string, parse: string -> Option<Json>)
    requires Codec(dumps, parse)
    ensures var shown := Enhanced.ReadStream(FrameTexts(Stable.StreamFrames(id, created, model, content), dumps), parse);
      shown == JoinSpaces(Words(content)) && Words(shown) == Words(content)
  {
    ReadFrames(Stable.StreamFrames(id, created, model, content), dumps, parse);
    Stable.StreamText(id, created, model, content);
  }

  /** The round trip when the page's reads deliver the frames in any
      grouping of whole frames. */
  lemma GroupedStreamRoundTrip(id: string, created: nat, model: string, content: string,
                               groups: seq<seq<Stable.Frame>>, dumps: Json -> string, parse: string -> Option<Json>)
    requires Codec(dumps, parse)
    requires Flatten(groups) == Stable.StreamFrames(id, created, model, content)
    ensures Enhanced.ReadStream(GroupTexts(groups, dumps), parse) == JoinSpaces(Words(content))
  {
    Stable.StreamShape(id, created, model, content);
    ReadGroups(groups, dumps, parse);
    Stable.StreamText(id, created, model, content);
  }

  /** The stream reaches the page only through the corrected handler: the
      frames of the completion it answers with read back as the reply's
      words. */
  lemma CorrectedHandlerRoundTrip(req: OpenAi.ChatRequest, idClock: nat, createdClock: nat,
                                  dumps: Json -> string, parse: string -> Option<Json>)
    requires Codec(dumps, parse)
    requires Stable.HandleIntended(req, idClock, createdClock).Streamed?
    ensures var c := Stable.Prepare(req, idClock, createdClock).value;
      Enhanced.ReadStream(FrameTexts(Stable.HandleIntended(req, idClock, createdClock).frames, dumps), parse)
        == JoinSpaces(Words(c.choices[0].content))
  {
    var c := Stable.Prepare(req, idClock, createdClock).value;
    StreamRoundTrip(c.id, c.created, c.model, c.choices[0].content, dumps, parse);
  }
}

=== FILE: stable.dfy ===
/** The stable demo service (app_hf_stable.py): an OpenAI-style
    chat-completions handler that answers from per-model reply templates,
    its emulated event stream, and the model list. */
module Stable {
  import opened Wrappers
  import opened Text
  import opened Json
  import opened OpenAi

  // ------------------------------------------------------- the user's text

  predicate IsUser(m: RequestMessage) {
    m.role == Some(JStr("user"))
  }

  /** Index of the last message whose role is "user", or -1 if none is. */
  function LastUserIndex(ms: seq<RequestMessage>): (k: int)
    ensures -1 <= k < |ms|
    ensures k == -1 <==> forall i :: 0 <= i < |ms| ==> !IsUser(ms[i])
    ensures k >= 0 ==> IsUser(ms[k]) && forall j :: k < j < |ms| ==> !IsUser(ms[j])
  {
    if ms == [] then -1
    else if IsUser(ms[|ms| - 1]) then |ms| - 1
    else LastUserIndex(ms[..|ms| - 1])
  }

  /** The text the reply is about: the content of the last message whose role
      is "user"; "Hello" when there is no such message or it has no content.
      Messages after it, whatever their role, play no part. */
  function UserMessage(ms: seq<RequestMessage>): (text: Json)
    ensures (forall i :: 0 <= i < |ms| ==> !IsUser(ms[i])) ==> text == JStr("Hello")
    ensures forall k :: 0 <= k < |ms| && IsUser(ms[k]) && (forall j :: k < j < |ms| ==> !IsUser(ms[j])) ==>
              text == ms[k].content.GetOr(JStr("Hello"))
  {
    var k := LastUserIndex(ms);
    if k < 0 then JStr("Hello") else ms[k].content.GetOr(JStr("Hello"))
  }

  /** The loop over `reversed(messages)` that stops at the first user
      message it meets. */
  method SelectUserMessage(ms: seq<RequestMessage>) returns (text: Json)
    ensures text == UserMessage(ms)
  {
    text := JStr("Hello");
    var i := |ms|;
    while i > 0
      invariant 0 <= i <= |ms|
      invariant forall j :: i <= j < |ms| ==> !IsUser(ms[j])
      invariant text == JStr("Hello")
    {
      i := i - 1;
      if IsUser(ms[i]) {
        text := ms[i].content.GetOr(JStr("Hello"));
        break;
      }
    }
  }

  // ------------------------------------------------------------ templates

  const ToolbazTemplate: Template :=
    Template("[Toolbaz v4.5 Fast] 您好！我收到了您的消息：",
      "。这是通过Toolbaz-2API服务处理的回复。在真实部署环境中，这里将是来自Toolbaz网站的真实AI响应。\n\n"
      + "本稳定版专为HuggingFace Spaces优化，避免浏览器崩溃问题。")
  const GeminiFlashTemplate: Template :=
    Template("[Gemini 2.5 Flash] 我理解您的问题：",
      "。作为Google的快速响应模型，我致力于提供简洁而准确的回答。\n\n"
      + "当前运行在HuggingFace Spaces演示环境中。要获得完整的Gemini体验，请按照右侧指南在您自己的服务器上部署。")
  const GeminiProTemplate: Template :=
    Template("[Gemini 2.5 Pro] 您的问题是：",
      "。我会深入分析并给出详细的回答。作为Google的高级模型，我能够处理复杂的查询和推理任务。\n\n"
      + "请注意：这是在HuggingFace Spaces上的演示版本。完整功能需要在自有服务器部署后才能实现。")
  const ClaudeTemplate: Template :=
    Template("[Claude Sonnet 4] 我收到了您的消息：",
      "。我是Anthropic开发的Claude模型，专注于有用、无害且诚实的对话。\n\n"
      + "当前运行在HuggingFace Spaces环境中。要体验完整的Claude功能，请参考部署指南在您的服务器上运行。")
  const GptTemplate: Template :=
    Template("[GPT-5] 您的消息是：",
      "。作为OpenAI的最新模型，我可以处理各种复杂的任务，从代码生成到创意写作。\n\n"
      + "注意：这是演示环境。完整的GPT-5功能需要通过Toolbaz-2API在您自己的服务器上部署才能使用。")
  const GrokTemplate: Template :=
    Template("[Grok 4 Fast] 您说了：",
      "。我是xAI的Grok模型，以实时信息和独特视角著称。\n\n"
      + "当前在HuggingFace Spaces演示中运行。完整的Grok体验需要私有部署，请查看右侧的部署说明。")
  const DefaultTemplate: Template :=
    Template("[AI模型] 收到消息：",
      "。这是模拟响应。完整功能需要在自有服务器部署。")

  /** `mock_responses.get(model, default)`: every known model has its own
      template, any other id gets the default one; each template quotes the
      user's text between apostrophes. */
  function ReplyTemplate(model: string): (t: Template)
    ensures IsKnownModel(model) <==> t != DefaultTemplate
    ensures |t.lead| >= 12 && t.lead[0] == '['
  {
    if model == "toolbaz-v4.5-fast" then ToolbazTemplate
    else if model == "gemini-2.5-flash" then GeminiFlashTemplate
    else if model == "gemini-2.5-pro" then GeminiProTemplate
    else if model == "claude-sonnet-4" then ClaudeTemplate
    else if model == "gpt-5" then GptTemplate
    else if model == "grok-4-fast" then GrokTemplate
    else DefaultTemplate
  }

  function Reply(model: string, text: string): string {
    ReplyTemplate(model).Fill(text)
  }

  /** Three characters of a template's opening that tell the seven
      templates apart. Comparing these three characters, rather than
      whole template texts, is what lets `ReplyIdentifiesModelAndText`
      recover the model from a reply: `SignatureOf`, `TemplateWith` and
      `ModelWith` map between models, templates and signatures. */
  function Signature(t: Template): (char, char, char)
    requires |t.lead| >= 12
  {
    (t.lead[1], t.lead[2], if |t.lead| > 12 then t.lead[12] else '\'')
  }

  /** The signature each model's template carries. */
  function SignatureOf(model: string): (char, char, char) {
    if model == "toolbaz-v4.5-fast" then ('T', 'o', '5')
    else if model == "gemini-2.5-flash" then ('G', 'e', 'F')
    else if model == "gemini-2.5-pro" then ('G', 'e', 'P')
    else if model == "claude-sonnet-4" then ('C', 'l', 'e')
    else if model == "gpt-5" then ('G', 'P', '是')
    else if model == "grok-4-fast" then ('G', 'r', ']')
    else ('A', 'I', '\'')
  }

  /** The template a signature belongs to. */
  function TemplateWith(sig: (char, char, char)): Template {
    if sig == ('T', 'o', '5') then ToolbazTemplate
    else if sig == ('G', 'e', 'F') then GeminiFlashTemplate
    else if sig == ('G', 'e', 'P') then GeminiProTemplate
    else if sig == ('C', 'l', 'e') then ClaudeTemplate
    else if sig == ('G', 'P', '是') then GptTemplate
    else if sig == ('G', 'r', ']') then GrokTemplate
    else DefaultTemplate
  }

  /** The known model a signature belongs to. */
  function ModelWith(sig: (char, char, char)): string {
    if sig == ('T', 'o', '5') then "toolbaz-v4.5-fast"
    else if sig == ('G', 'e', 'F') then "gemini-2.5-flash"
    else if sig == ('G', 'e', 'P') then "gemini-2.5-pro"
    else if sig == ('C', 'l', 'e') then "claude-sonnet-4"
    else if sig == ('G', 'P', '是') then "gpt-5"
    else "grok-4-fast"
  }

  lemma ToolbazSignature()
    ensures Signature(ToolbazTemplate) == ('T', 'o', '5')
  {
  }

  lemma GeminiSignatures()
    ensures Signature(GeminiFlashTemplate) == ('G', 'e', 'F')
    ensures Signature(GeminiProTemplate) == ('G', 'e', 'P')
  {
  }

  lemma OtherSignatures()
    ensures Signature(ClaudeTemplate) == ('C', 'l', 'e')
    ensures Signature(GptTemplate) == ('G', 'P', '是')
    ensures Signature(GrokTemplate) == ('G', 'r', ']')
    ensures Signature(DefaultTemplate) == ('A', 'I', '\'')
  {
  }

  /** Each template shows its model's signature, and the signature leads
      back to the template and, for a known model, to the model. */
  lemma TemplateSignature(model: string)
    ensures Signature(ReplyTemplate(model)) == SignatureOf(model)
    ensures TemplateWith(SignatureOf(model)) == ReplyTemplate(model)
    ensures IsKnownModel(model) ==> ModelWith(SignatureOf(model)) == model
  {
    if model == "toolbaz-v4.5-fast" {
      ToolbazSignature();
    } else if model == "gemini-2.5-flash" || model == "gemini-2.5-pro" {
      GeminiSignatures();
    } else {
      OtherSignatures();
    }
  }

  lemma FillShowsSignature(t: Template, text: string)
    requires |t.lead| >= 12
    ensures Signature(t) == (t.Fill(text)[1], t.Fill(text)[2], t.Fill(text)[12])
  {
    var r := t.Fill(text);
    assert r[..|t.lead|] == t.lead;
    if |t.lead| > 12 {
      assert r[12] == r[..|t.lead|][12];
    }
  }

  /** A reply names its model and its text: equal replies come from the
      same text and from the same model, or from two unknown models. */
  lemma ReplyIdentifiesModelAndText(m1: string, m2: string, a: string, b: string)
    requires Reply(m1, a) == Reply(m2, b)
    ensures a == b
    ensures m1 == m2 || (!IsKnownModel(m1) && !IsKnownModel(m2))
  {
    var t1, t2 := ReplyTemplate(m1), ReplyTemplate(m2);
    FillShowsSignature(t1, a);
    FillShowsSignature(t2, b);
    TemplateSignature(m1);
    TemplateSignature(m2);
    assert SignatureOf(m1) == SignatureOf(m2);
    assert t1 == t2;
    FillRecoversText(t1, a, b);
  }

  /** Every reply has at least one word, so a completion's usage total is
      never zero. */
  lemma ReplyUsagePositive(model: string, prompt: string, text: string)
    ensures EstimateUsage(prompt, Reply(model, text)).totalTokens >= 2
  {
    UsagePositive(prompt, Reply(model, text));
  }

  // ------------------------------------------------------------ the stream

  /** One event of the emulated stream: a `chat.completion.chunk` carrying a
      delta, or the terminal `[DONE]`. */
  datatype Delta = Delta(role: Option<string>, content: string)
  datatype Frame = Chunk(id: string, created: nat, model: string, delta: Delta) | Done

  /** The frame for the i-th of the words: the word, followed by one space
      unless it is the last. */
  function WordFrames(id: string, created: nat, model: string, words: seq<string>): (fs: seq<Frame>)
    ensures |fs| == |words|
  {
    seq(|words|, i requires 0 <= i < |words| =>
      Chunk(id, created, model, Delta(None, words[i] + (if i < |words| - 1 then " " else ""))))
  }

  /** The whole stream for a reply: a role frame with empty content, one
      frame per word of `content.split()`, then `[DONE]`. */
  function StreamFrames(id: string, created: nat, model: string, content: string): (fs: seq<Frame>)
    ensures |fs| == |Words(content)| + 2
    ensures fs[0] == Chunk(id, created, model, Delta(Some("assistant"), "")) && fs[|fs| - 1] == Done
  {
    [Chunk(id, created, model, Delta(Some("assistant"), ""))]
      + WordFrames(id, created, model, Words(content))
      + [Done]
  }

  /** `generate_stream`: the for loop over the words, yielding in order. */
  method GenerateStream(id: string, created: nat, model: string, content: string) returns (frames: seq<Frame>)
    ensures frames == StreamFrames(id, created, model, content)
  {
    frames := [Chunk(id, created, model, Delta(Some("assistant"), ""))];
    var words := Words(content);
    for i := 0 to |words|
      invariant frames == [Chunk(id, created, model, Delta(Some("assistant"), ""))]
                          + WordFrames(id, created, model, words)[..i]
    {
      var piece := words[i] + (if i < |words| - 1 then " " else "");
      frames := frames + [Chunk(id, created, model, Delta(None, piece))];
      assert WordFrames(id, created, model, words)[..i + 1]
          == WordFrames(id, created, model, words)[..i] + [WordFrames(id, created, model, words)[i]];
    }
    frames := frames + [Done];
  }

  /** The shape of the stream: `|words| + 2` frames, a role frame first, the
      single `[DONE]` last, all chunks stamped with the same id, creation
      time and model. */
  lemma StreamShape(id: string, created: nat, model: string, content: string)
    ensures var fs, ws := StreamFrames(id, created, model, content), Words(content);
      && |fs| == |ws| + 2
      && fs[0] == Chunk(id, created, model, Delta(Some("assistant"), ""))
      && fs[|fs| - 1] == Done
      && (forall i :: 0 <= i < |fs| - 1 ==> fs[i].Chunk? && fs[i].id == id && fs[i].created == created && fs[i].model == model)
  {
    var role := [Chunk(id, created, model, Delta(Some("assistant"), ""))];
    var body := WordFrames(id, created, model, Words(content));
    var fs := StreamFrames(id, created, model, content);
    forall i | 0 <= i < |fs| - 1
      ensures fs[i].Chunk? && fs[i].id == id && fs[i].created == created && fs[i].model == model
    {
      if i > 0 {
        assert fs[i] == body[i - 1];
      }
    }
  }

  /** The frames between the role frame and `[DONE]` carry the words in
      order: each word but the last followed by one separating space (a
      word never ends in whitespace of its own), the last word bare. */
  lemma StreamWordDeltas(id: string, created: nat, model: string, content: string)
    ensures var fs, ws := StreamFrames(id, created, model, content), Words(content);
      && (forall i :: 0 <= i < |ws| - 1 ==> fs[i + 1].delta == Delta(None, ws[i] + " ") && !IsSpace(ws[i][|ws[i]| - 1]))
      && (|ws| > 0 ==> fs[|ws|].delta == Delta(None, ws[|ws| - 1]))
  {
    FramedWordDeltas(id, created, model, Words(content));
  }

  /** `StreamWordDeltas` for any sequence of words. */
  lemma FramedWordDeltas(id: string, created: nat, model: string, ws: seq<string>)
    requires AllWords(ws)
    ensures var fs := [Chunk(id, created, model, Delta(Some("assistant"), ""))] + WordFrames(id, created, model, ws) + [Done];
      && (forall i :: 0 <= i < |ws| - 1 ==> fs[i + 1].delta == Delta(None, ws[i] + " ") && !IsSpace(ws[i][|ws[i]| - 1]))
      && (|ws| > 0 ==> fs[|ws|].delta == Delta(None, ws[|ws| - 1]))
  {
    var body := WordFrames(id, created, model, ws);
    var fs := [Chunk(id, created, model, Delta(Some("assistant"), ""))] + body + [Done];
    forall i | 0 <= i < |ws| - 1
      ensures fs[i + 1].delta == Delta(None, ws[i] + " ") && !IsSpace(ws[i][|ws[i]| - 1])
    {
      Between(fs[0], body, Done, i);
      assert body[i].delta.content == ws[i] + " ";
      assert IsWord(ws[i]);
    }
    if |ws| > 0 {
      Between(fs[0], body, Done, |ws| - 1);
      assert body[|ws| - 1].delta.content == ws[|ws| - 1];
    }
  }

  lemma Between(first: Frame, body: seq<Frame>, last: Frame, i: nat)
    requires i < |body|
    ensures ([first] + body + [last])[i + 1] == body[i]
  {
  }

  /** The concatenated delta contents of a frame sequence. */
  function DeltaText(fs: seq<Frame>): string {
    if fs == [] then ""
    else (if fs[0].Chunk? then fs[0].delta.content else "") + DeltaText(fs[1..])
  }

  lemma {:induction false} DeltaTextAppend(a: seq<Frame>, b: seq<Frame>)
    ensures DeltaText(a + b) == DeltaText(a) + DeltaText(b)
  {
    if a == [] {
      assert a + b == b;
    } else {
      assert (a + b)[0] == a[0];
      assert (a + b)[1..] == a[1..] + b;
      DeltaTextAppend(a[1..], b);
    }
  }

  lemma {:induction false} WordFramesText(id: string, created: nat, model: string, ws: seq<string>)
    ensures DeltaText(WordFrames(id, created, model, ws)) == JoinSpaces(ws)
  {
    var fs := WordFrames(id, created, model, ws);
    if |ws| == 1 {
      assert fs[1..] == [];
    } else if |ws| > 1 {
      assert fs[1..] == WordFrames(id, created, model, ws[1..]);
      WordFramesText(id, created, model, ws[1..]);
    }
  }

  /** Concatenating the deltas of the stream gives the reply's words joined
      by single spaces, which splits back into exactly the reply's words. */
  lemma StreamText(id: string, created: nat, model: string, content: string)
    ensures DeltaText(StreamFrames(id, created, model, content)) == JoinSpaces(Words(content))
    ensures Words(DeltaText(StreamFrames(id, created, model, content))) == Words(content)
  {
    var role := [Chunk(id, created, model, Delta(Some("assistant"), ""))];
    var body := WordFrames(id, created, model, Words(content));
    DeltaTextAppend(role + body, [Done]);
    DeltaTextAppend(role, body);
    WordFramesText(id, created, model, Words(content));
    SplitJoinRoundTrip(Words(content));
  }

  /** Streaming normalises whitespace: a reply with a line break is not what
      its stream concatenates to. */
  lemma StreamLosesLineBreaks(id: string, created: nat, model: string, content: string)
    requires '\n' in content
    ensures DeltaText(StreamFrames(id, created, model, content)) != content
  {
    StreamText(id, created, model, content);
    var ws := Words(content);
    forall i | 0 <= i < |ws| ensures '\n' !in ws[i] {
      assert IsWord(ws[i]);
    }
    JoinSpacesChars(ws, '\n');
  }

  lemma TrailLineBreak(t: Template, text: string, i: nat)
    requires i < |t.trail| && t.trail[i] == '\n'
    ensures '\n' in t.Fill(text)
  {
    assert t.Fill(text)[|t.lead| + |text| + 2 + i] == '\n';
  }

  /** Every known model's reply has a line break, so its stream never
      reproduces the non-streamed content. */
  lemma KnownRepliesHaveLineBreaks(model: string, text: string)
    requires IsKnownModel(model)
    ensures '\n' in Reply(model, text)
  {
    if model == "toolbaz-v4.5-fast" {
      TrailLineBreak(ToolbazTemplate, text, 57);
    } else if model == "gemini-2.5-flash" {
      TrailLineBreak(GeminiFlashTemplate, text, 32);
    } else if model == "gemini-2.5-pro" {
      TrailLineBreak(GeminiProTemplate, text, 46);
    } else if model == "claude-sonnet-4" {
      TrailLineBreak(ClaudeTemplate, text, 39);
    } else if model == "gpt-5" {
      TrailLineBreak(GptTemplate, text, 39);
    } else {
      TrailLineBreak(GrokTemplate, text, 27);
    }
  }

  // ----------------------------------------------------------- the handler

  /** What the handler hands back: a JSON reply, or (only in the intended
      behaviour) an event stream. */
  datatype Answer = Replied(reply: HttpReply) | Streamed(frames: seq<Frame>)

  /** 500 with `{"error": "处理失败: <text>"}` */
  function Failure(text: string): (r: HttpReply)
    ensures r.status == 500 && r.body.JsonBody? && r.body.json.JObj? && r.body.json.fields.Keys == {"error"}
    ensures r.body.json.fields["error"] == JStr("处理失败: " + text)
  {
    HttpReply(500, JsonBody(ErrorJson(JStr("处理失败: " + text))))
  }

  /** The completion the handler builds, or the text of the exception
      raised while building it (a non-string user text has no `split`). */
  function Prepare(req: ChatRequest, idClock: nat, createdClock: nat): (r: Outcome<Completion>)
    ensures r.Ok? <==> UserMessage(req.messages.GetOr([])).JStr?
    ensures r.Ok? ==> var text := UserMessage(req.messages.GetOr([])).s;
      && r.value == BuildCompletion(req.model.GetOr(DefaultModel), text,
                                    Reply(req.model.GetOr(DefaultModel), text), idClock, createdClock)
  {
    var model := req.model.GetOr(DefaultModel);
    var userMessage := UserMessage(req.messages.GetOr([]));
    if !userMessage.JStr? then Raised(NoAttribute(userMessage, "split"))
    else
      var content := Reply(model, userMessage.s);
      Ok(BuildCompletion(model, userMessage.s, content, idClock, createdClock))
  }

  /** The text of the NameError raised where the stream would be returned:
      `StreamingResponse` is never imported. */
  const StreamingResponseUndefined: string := "name 'StreamingResponse' is not defined"

  /** `stable_chat_completions` as written. */
  function Handle(req: ChatRequest, idClock: nat, createdClock: nat): (r: HttpReply)
    ensures r.status == 200 || r.status == 500
    ensures r.status == 200 <==> Prepare(req, idClock, createdClock).Ok? && !PyTruthy(req.stream.GetOr(JBool(false)))
    ensures r.status == 200 ==> r.body == CompletionBody(Prepare(req, idClock, createdClock).value)
    ensures Prepare(req, idClock, createdClock).Raised? ==> r == Failure(Prepare(req, idClock, createdClock).message)
    ensures Prepare(req, idClock, createdClock).Ok? && PyTruthy(req.stream.GetOr(JBool(false))) ==>
      r == Failure(StreamingResponseUndefined)
  {
    match Prepare(req, idClock, createdClock)
    case Raised(e) => Failure(e)
    case Ok(c) =>
      if PyTruthy(req.stream.GetOr(JBool(false))) then Failure(StreamingResponseUndefined)
      else HttpReply(200, CompletionBody(c))
  }

  /** Every request that asks for a stream (and reaches that point) gets the
      500 error instead. */
  lemma StreamRequestsFail(req: ChatRequest, idClock: nat, createdClock: nat)
    requires PyTruthy(req.stream.GetOr(JBool(false)))
    requires UserMessage(req.messages.GetOr([])).JStr?
    ensures Handle(req, idClock, createdClock) == Failure(StreamingResponseUndefined)
  {
  }

  /** The handler as its authors meant it: a stream request gets the frames
      of `generate_stream`. */
  function HandleIntended(req: ChatRequest, idClock: nat, createdClock: nat): (a: Answer)
    ensures a.Streamed? <==> Prepare(req, idClock, createdClock).Ok? && PyTruthy(req.stream.GetOr(JBool(false)))
    ensures a.Streamed? ==> var c := Prepare(req, idClock, createdClock).value;
      a.frames == StreamFrames(c.id, c.created, c.model, c.choices[0].content)
    ensures a.Replied? ==> a.reply == Handle(req, idClock, createdClock)
  {
    match Prepare(req, idClock, createdClock)
    case Raised(e) => Replied(Failure(e))
    case Ok(c) =>
      if PyTruthy(req.stream.GetOr(JBool(false))) then Streamed(StreamFrames(c.id, c.created, c.model, c.choices[0].content))
      else Replied(HttpReply(200, CompletionBody(c)))
  }

  // ---------------------------------------------------------- model list

  datatype ModelCard = ModelCard(id: string, created: nat, ownedBy: string)

  /** The company that owns each listed model. */
  function Owner(id: string): string {
    if id == "toolbaz-v4.5-fast" then "toolbaz"
    else if id == "gemini-2.5-flash" || id == "gemini-2.5-pro" then "google"
    else if id == "claude-sonnet-4" then "anthropic"
    else if id == "gpt-5" then "openai"
    else if id == "grok-4-fast" then "xai"
    else ""
  }

  /** `list_models`: the six known models, each with its owner and
      stamped with its own reading of the clock (`int(time.time())` is
      evaluated once per entry). */
  function ListModels(clock: seq<nat>): (cards: seq<ModelCard>)
    requires |clock| == |ModelIds|
    ensures |cards| == |ModelIds|
    ensures forall i :: 0 <= i < |cards| ==>
      cards[i].id == ModelIds[i] && cards[i].created == clock[i] && cards[i].ownedBy == Owner(cards[i].id)
  {
    [ModelCard("toolbaz-v4.5-fast", clock[0], "toolbaz"),
     ModelCard("gemini-2.5-flash", clock[1], "google"),
     ModelCard("gemini-2.5-pro", clock[2], "google"),
     ModelCard("claude-sonnet-4", clock[3], "anthropic"),
     ModelCard("gpt-5", clock[4], "openai"),
     ModelCard("grok-4-fast", clock[5], "xai")]
  }

  /** One entry of the `data` list `list_models` answers with. */
  function CardJson(c: ModelCard): Json {
    JObj(map["id" := JStr(c.id), "object" := JStr("model"), "created" := JNum(c.created), "owned_by" := JStr(c.ownedBy)])
  }

  /** The JSON document `list_models` answers with. */
  function ModelListJson(cards: seq<ModelCard>): (j: Json)
    ensures j.JObj? && "data" in j.fields && j.fields["data"].JArr? && |j.fields["data"].items| == |cards|
    ensures forall i :: 0 <= i < |cards| ==> j.fields["data"].items[i] == CardJson(cards[i])
  {
    JObj(map["object" := JStr("list"), "data" := JArr(seq(|cards|, i requires 0 <= i < |cards| => CardJson(cards[i])))])
  }

  /** The listed models are exactly those with a template of their own. */
  lemma ListedModelsHaveTemplates(clock: seq<nat>, model: string)
    requires |clock| == |ModelIds|
    ensures (exists i :: 0 <= i < 6 && ListModels(clock)[i].id == model) <==> ReplyTemplate(model) != DefaultTemplate
  {
    if ReplyTemplate(model) != DefaultTemplate {
      var i :| 0 <= i < 6 && ModelIds[i] == model;
      assert ListModels(clock)[i].id == model;
    }
  }
}

=== FILE: text.dfy ===
/** Text primitives shared by the front-ends: Python's notion of whitespace,
    `str.split()` with no argument, `" ".join(...)`, `not s.strip()`,
    `str(n)` for non-negative integers, `s[:n]`, and JavaScript's
    `s.split('\n')`. Strings are sequences of Unicode scalar values. */
module Text {

  /** `c.isspace()` in Python 3: the characters whose bidirectional class
      is WS, B or S, or whose general category is Zs. */
  predicate IsSpace(c: char) {
    ('\U{9}' <= c <= '\U{D}') || ('\U{1C}' <= c <= '\U{1F}') || c == ' ' ||
    c == '\U{85}' || c == '\U{A0}' || c == '\U{1680}' || ('\U{2000}' <= c <= '\U{200A}') ||
    c == '\U{2028}' || c == '\U{2029}' || c == '\U{202F}' || c == '\U{205F}' || c == '\U{3000}'
  }

  /** A word as `str.split()` produces it: non-empty, no whitespace in it. */
  predicate IsWord(w: string) {
    w != [] && forall i :: 0 <= i < |w| ==> !IsSpace(w[i])
  }

  predicate AllWords(ws: seq<string>) {
    forall i :: 0 <= i < |ws| ==> IsWord(ws[i])
  }

  /** `not s.strip()`: the string is empty or whitespace only. */
  predicate IsBlank(s: string) {
    forall i :: 0 <= i < |s| ==> IsSpace(s[i])
  }

  /** Length of the maximal whitespace-free prefix of `s`. */
  function RunLength(s: string): (n: nat)
    ensures n <= |s|
    ensures forall i :: 0 <= i < n ==> !IsSpace(s[i])
    ensures n < |s| ==> IsSpace(s[n])
  {
    if s == [] || IsSpace(s[0]) then 0 else 1 + RunLength(s[1..])
  }

  /** `s.split()`: the maximal runs of non-whitespace characters, in order. */
  function Words(s: string): (ws: seq<string>)
    ensures AllWords(ws)
    decreases |s|
  {
    if s == [] then []
    else if IsSpace(s[0]) then Words(s[1..])
    else
      var n := RunLength(s);
      [s[..n]] + Words(s[n..])
  }

  /** `" ".join(ws)` */
  function JoinSpaces(ws: seq<string>): string {
    if |ws| == 0 then ""
    else if |ws| == 1 then ws[0]
    else ws[0] + " " + JoinSpaces(ws[1..])
  }

  /** Number of words, as `len(s.split())`. */
  function WordCount(s: string): nat {
    |Words(s)|
  }

  lemma {:induction false} RunLengthOfWord(w: string, t: string)
    requires IsWord(w)
    requires t == [] || IsSpace(t[0])
    ensures RunLength(w + t) == |w|
  {
    if |w| > 1 {
      assert (w + t)[1..] == w[1..] + t;
      RunLengthOfWord(w[1..], t);
    } else {
      assert (w + t)[1..] == t;
    }
  }

  /** A blank string has no words, and a string without words is blank. */
  lemma {:induction false} BlankIffNoWords(s: string)
    ensures IsBlank(s) <==> Words(s) == []
    decreases |s|
  {
    if s != [] {
      if IsSpace(s[0]) {
        BlankIffNoWords(s[1..]);
        assert IsBlank(s) <==> IsBlank(s[1..]) by {
          if IsBlank(s[1..]) {
            forall i | 0 <= i < |s| ensures IsSpace(s[i]) {
              if i > 0 { assert s[i] == s[1..][i - 1]; }
            }
          }
        }
      }
    }
  }

  /** Splitting text made of words joined by single spaces gives back the
      words: `" ".join(ws).split() == ws` whenever every element is a word. */
  lemma {:induction false} SplitJoinRoundTrip(ws: seq<string>)
    requires AllWords(ws)
    ensures Words(JoinSpaces(ws)) == ws
  {
    if |ws| == 1 {
      RunLengthOfWord(ws[0], []);
      assert ws[0] + [] == ws[0];
      assert ws[0][|ws[0]|..] == [];
    } else if |ws| > 1 {
      var w, rest := ws[0], JoinSpaces(ws[1..]);
      var s := w + " " + rest;
      RunLengthOfWord(w, " " + rest);
      assert s == w + (" " + rest);
      assert s[..|w|] == w;
      assert s[|w|..] == " " + rest;
      assert (" " + rest)[1..] == rest;
      SplitJoinRoundTrip(ws[1..]);
      assert Words(s) == [w] + Words(rest);
    }
  }

  /** Joining words never introduces a character other than the words' own
      characters and the single separating space. */
  lemma {:induction false} JoinSpacesChars(ws: seq<string>, c: char)
    requires c != ' '
    requires forall i :: 0 <= i < |ws| ==> c !in ws[i]
    ensures c !in JoinSpaces(ws)
  {
    if |ws| > 1 {
      JoinSpacesChars(ws[1..], c);
    }
  }

  /** The `s[:n]` slice of Python. */
  function Prefix(s: string, n: nat): (r: string)
    ensures |r| <= n && |r| <= |s|
    ensures |s| <= n ==> r == s
    ensures r <= s
  {
    if |s| <= n then s else s[..n]
  }

  function DigitChar(d: nat): char
    requires d < 10
  {
    "0123456789"[d]
  }

  /** `str(n)` for a non-negative integer. */
  function NatToString(n: nat): (r: string)
    ensures r != []
    ensures forall i :: 0 <= i < |r| ==> '0' <= r[i] <= '9'
  {
    if n < 10 then [DigitChar(n)] else NatToString(n / 10) + [DigitChar(n % 10)]
  }

  /** Reads a string of decimal digits back as a number. */
  function DigitsValue(s: string): nat
    requires forall i :: 0 <= i < |s| ==> '0' <= s[i] <= '9'
  {
    if s == [] then 0 else 10 * DigitsValue(s[..|s| - 1]) + (s[|s| - 1] as int - '0' as int)
  }

  /** Length of the maximal run of decimal digits that opens `s`. */
  function LeadingDigits(s: string): (n: nat)
    ensures n <= |s|
  {
    if s == [] || !('0' <= s[0] <= '9') then 0 else 1 + LeadingDigits(s[1..])
  }

  /** Digits followed by a non-digit: the digit run is exactly the digits. */
  lemma {:induction false} LeadingDigitsOf(d: string, u: string)
    requires forall i :: 0 <= i < |d| ==> '0' <= d[i] <= '9'
    requires u != [] && !('0' <= u[0] <= '9')
    ensures LeadingDigits(d + u) == |d|
  {
    if d == [] {
      assert d + u == u;
    } else {
      assert (d + u)[1..] == d[1..] + u;
      LeadingDigitsOf(d[1..], u);
    }
  }

  /** The decimal rendering is read back as the same number, so distinct
      numbers are rendered differently. */
  lemma {:induction false} NatToStringRoundTrip(n: nat)
    ensures DigitsValue(NatToString(n)) == n
  {
    if n >= 10 {
      NatToStringRoundTrip(n / 10);
      var r := NatToString(n);
      assert r[..|r| - 1] == NatToString(n / 10);
    }
  }

  lemma NatToStringInjective(m: nat, n: nat)
    requires NatToString(m) == NatToString(n)
    ensures m == n
  {
    NatToStringRoundTrip(m);
    NatToStringRoundTrip(n);
  }

  /** JavaScript `s.split('\n')`: the pieces between newlines, empty ones
      included. */
  function SplitLines(s: string): (r: seq<string>)
    ensures |r| >= 1
    ensures forall i :: 0 <= i < |r| ==> '\n' !in r[i]
    ensures '\n' !in s ==> r == [s]
  {
    if s == [] then [""]
    else if s[0] == '\n' then [""] + SplitLines(s[1..])
    else
      var rest := SplitLines(s[1..]);
      assert s == [s[0]] + s[1..];
      [[s[0]] + rest[0]] + rest[1..]
  }

  /** `pieces.join('\n')` */
  function JoinLines(pieces: seq<string>): string {
    if |pieces| == 0 then ""
    else if |pieces| == 1 then pieces[0]
    else pieces[0] + "\n" + JoinLines(pieces[1..])
  }

  /** Splitting on newlines loses nothing: joining the pieces gives the text. */
  lemma {:induction false} SplitLinesJoin(s: string)
    ensures JoinLines(SplitLines(s)) == s
  {
    if s != [] {
      SplitLinesJoin(s[1..]);
      var rest := SplitLines(s[1..]);
      if s[0] == '\n' {
        assert SplitLines(s) == [""] + rest;
        assert JoinLines(SplitLines(s)) == "" + "\n" + JoinLines(rest);
      } else if |rest| == 1 {
        assert SplitLines(s) == [[s[0]] + rest[0]];
      } else {
        assert SplitLines(s)[1..] == rest[1..];
        assert JoinLines(SplitLines(s)) == [s[0]] + rest[0] + "\n" + JoinLines(rest[1..]);
      }
    }
  }

  /** A newline-free line followed by a newline is split off as one piece. */
  lemma {:induction false} SplitLinesCons(a: string, b: string)
    requires '\n' !in a
    ensures SplitLines(a + "\n" + b) == [a] + SplitLines(b)
    decreases |a|
  {
    if a == [] {
      assert a + "\n" + b == "\n" + b;
      assert ("\n" + b)[1..] == b;
    } else {
      assert (a + "\n" + b)[1..] == a[1..] + "\n" + b;
      SplitLinesCons(a[1..], b);
      assert [a[0]] + a[1..] == a;
    }
  }
}

=== FILE: wrappers.dfy ===
/** Absent values and results that may carry the text of an exception. */
module Wrappers {

  datatype Option<+T> = None | Some(value: T) {
    function GetOr(default: T): T {
      match this
      case Some(v) => v
      case None => default
    }
  }

  /** The value of an evaluation, or the message (`str(e)`) of the exception
      it raised. */
  datatype Outcome<+T> = Ok(value: T) | Raised(message: string) {
    predicate IsFailure() {
      Raised?
    }

    function PropagateFailure<U>(): Outcome<U>
      requires Raised?
    {
      Raised(message)
    }

    function Extract(): T
      requires Ok?
    {
      value
    }
  }
}
